=== FILE: README.md ===
# Film-scan metadata tagger, in Dafny

A model of the logic of a small Python tool for film photographers. The tool
takes a directory of scanned `.jpg` frames and a spreadsheet (CSV) of
per-shot notes. It writes each note into its frame's EXIF metadata with
`exiftool`. It has two helpers from the tool's table editor:

- `factor_continuous_indices` cuts the selected row numbers into runs of
  consecutive integers;
- `shift_rows_down` moves the table's rows down one slot from a selected
  row and leaves a placeholder row behind.

Modules, one per concern of the program:

| file | module | models |
|---|---|---|
| `wrappers.dfy` | `Wrappers` | `Option` and `Result` with the `:-` operator |
| `text.dfy` | `Text` | digits, zero-padded decimals, whitespace and case folding in the ASCII range, Python slicing with negative bounds, `str.rfind` |
| `sorting.dfy` | `Sorting` | Python's stable `list.sort` as an insertion sort over sequences, with sortedness and stability proved |
| `grouping.dfy` | `Grouping` | `factor_continuous_indices` |
| `row_shift.dfy` | `RowShift` | `shift_rows_down` over the rows' values |
| `images.dfy` | `Images` | `get_images`: `.jpg` selection and the shot-number order with its name-order fallback |
| `csv_rows.dfy` | `CsvRows` | `get_exif_data`: header and blank-record handling |
| `exposure.dfy` | `Exposure` | `ss_to_float` and the aperture's "f:" stripping |
| `dates.dfy` | `Dates` | `strptime("%b %d, %Y at %H:%M")` followed by `strftime("%Y:%m:%d %H:%M:%S")` |
| `batch.dfy` | `Batch` | the camera argument, the flag selection of `main`, the count check and the per-image loop up to the first exception |

Decimal parsing (`float()`) is a parameter throughout. It is a function
`parse: string -> Option<real>`, with `None` where Python raises
`ValueError`. So the properties hold for every parser.

The model follows the code, including where it departs from the tool's
comments:

- a CSV record is dropped only when it has no fields at all. A record of
  empty or blank fields is kept;
- a date that does not convert raises in `main`. The exception is not
  caught, so it ends the whole batch; the field does not become empty;
- a shutter speed written `K"` loses its last digit, because the seconds
  branch reads `ss[:-2]` (see Findings). The batch follows the code as
  written: `15"` is tagged as 1 second, and `2"` gets no exposure time.
  "1/125", without the trailing `s`, takes the seconds branch, so it yields
  no exposure time either;
- the date pattern is looser than the spreadsheet's rendering: the month in
  any letter case, any run of whitespace where the format has a space, "AT"
  in any case, and one-digit days, hours and minutes are all accepted;
- the GPS fragment of the command has no space after its last argument, so
  it runs into `-ImageDescription` (see Findings). The flag list models the
  separate arguments the command evidently means;
- the comment at the top of `apply_exif.py` lists eight CSV columns, but
  `main` reads fields by the positions of its `CSV` enumeration, up to
  position 12. The model reads those positions, and a record of fewer than
  thirteen fields stops the batch with an `IndexError`;
- the selected row numbers are a list, not a set. Duplicates are kept, so
  `[1, 1, 2]` groups as `[[1], [1, 2]]`.

## Model

| member | source | states |
|---|---|---|
| Grouping.FactorContinuousIndices | test_group_indices.py:1-17 | the caller's list ends up sorted (a permutation of the input in ascending order); the groups are non-empty runs of consecutive integers that join back to the sorted list; no two neighbouring groups could be merged; there is one group per break plus one; an empty input gives no groups; the groups are exactly `Runs` of the sorted list |
| Grouping.Runs | test_group_indices.py:7-16 | the element-by-element grouping is a decomposition into maximal consecutive runs, with one run per break plus one |
| Grouping.RunsCharacterized | test_group_indices.py:7-16 | a grouping is a decomposition of `s` into non-empty, consecutive, maximal runs if and only if it is the loop's grouping of `s` |
| Grouping.RunsAreUnique | test_group_indices.py:7-16 | any decomposition into non-empty, consecutive, maximal runs is the one the loop builds |
| Grouping.AppendKeepsRuns | test_group_indices.py:9-14 | one loop step keeps the groups a maximal-run decomposition of the prefix read so far, and counts breaks |
| Grouping.LoopStep | test_group_indices.py:9-16 | an element one above its predecessor extends the current group; any other element closes the current group and opens a new one |
| Grouping.ExtendRun | test_group_indices.py:10-11 | appending the successor of the last element extends the last run and keeps the decomposition maximal |
| Grouping.StartRun | test_group_indices.py:12-14 | appending any other element opens a new one-element run and keeps the decomposition maximal |
| Grouping.ShrinkLastRun | test_group_indices.py:10-11 | a last run of two or more came from extending the run without its last element |
| Grouping.DropLastRun | test_group_indices.py:12-14 | a last run of one element came from a break, or from the first element |
| Grouping.SortIndices | test_group_indices.py:5 | `indices.sort()` gives an ascending permutation of the list |
| Grouping.SortedIsUnique | test_group_indices.py:5 | two ascending lists with the same elements are equal, so the sorted list is determined by the input |
| Grouping.OneRunExample | test_group_indices.py:20-22 | for `[1, 2, 3]` in any order, the groups are `[[1, 2, 3]]` |
| Grouping.ThreeRunsExample | test_group_indices.py:21-23 | for `[1, 4, 5, 7, 8, 9, 10]` in any order, the groups are `[[1], [4, 5], [7, 8, 9, 10]]` |
| Sorting.Sort | apply_exif.py:67-69 | sorting permutes its input |
| Sorting.SortIsSorted | apply_exif.py:67-69 | under a total preorder, the result is in order |
| Sorting.SortIsStable | apply_exif.py:67-69 | elements that compare equal keep their input order (Python's sort is stable) |
| Sorting.Insert | apply_exif.py:67-69 | inserting adds exactly the one element |
| Sorting.InsertSorted | apply_exif.py:67-69 | inserting into a sorted sequence keeps it sorted |
| RowShift.ShiftRowsDown | test_shift_down.py:4-22 | an invalid index changes nothing; otherwise the rows before the selection are unchanged, the selected row becomes `["-", "-", "-"]`, and each later row takes the value of the row above it |
| RowShift.ShiftedDownPointwise | test_shift_down.py:14-22 | the position-by-position description of the shift determines the whole table |
| RowShift.ShiftDiscardsLastRow | test_shift_down.py:14-22 | the shift loses exactly the old last row and gains one placeholder row |
| RowShift.FourRowsExample | test_shift_down.py:35-43 | the window's four rows shifted from position 1 become first row, placeholder, second row, third row |
| Images.Suffix | apply_exif.py:62 | the suffix is empty or a dot-led proper tail of the name |
| Images.Stem | apply_exif.py:67 | the stem begins the name |
| Images.StemAndSuffix | apply_exif.py:62 | the stem followed by the suffix is the whole name |
| Images.IsJpgCharacterized | apply_exif.py:62 | a file is kept exactly when its name is longer than ".jpg" and ends in ".jpg" (case-sensitive) |
| Images.SelectJpg | apply_exif.py:61-63 | every kept name is a `.jpg` file, every listed `.jpg` name is kept, and no more names are kept than listed |
| Images.SelectJpgCounts | apply_exif.py:61-63 | each `.jpg` name is kept as often as it is listed, and no other name is kept |
| Images.SelectJpgAppend | apply_exif.py:61-63 | the filter keeps listing order |
| Images.NumberText | apply_exif.py:67 | the key text is the part after the last '-', or the whole stem; it holds no '-' |
| Images.NumberTextAfterHyphen | apply_exif.py:67 | for `prefix-t`, with no '-' in `t`, the key text is `t` |
| Images.ParseInt | apply_exif.py:67 | `int()` succeeds exactly on a non-empty run of digits |
| Images.ParseIntOfPad | apply_exif.py:67 | zero-padded decimal text reads back as its number |
| Images.KeyOfNumbered | apply_exif.py:67 | the key of `prefix-t.jpg` is the integer `t` spells, or none |
| Images.OrderImages | apply_exif.py:58-73 | the result is a permutation of the `.jpg` files; it is in shot-number order when every stem ends in an integer, and in name order otherwise |
| Images.OrderImagesStable | apply_exif.py:66-67 | frames with the same shot number keep their listing order |
| Images.OrderImagesKeepsJpgs | apply_exif.py:58-73 | a name is in the result exactly when it is listed and is a `.jpg` file |
| Images.LexLe | apply_exif.py:69 | a name sorts at or before every name it begins, and after every shorter name that begins it |
| Images.LexLeAtFirstDifference | apply_exif.py:69 | where two names first differ, the smaller character puts its name first |
| Images.LexLeIsTotalPreorder | apply_exif.py:69 | name comparison is total and transitive |
| Images.LexLeAntisymmetric | apply_exif.py:69 | names that compare equal are equal |
| Images.KeyLeIsTotalPreorder | apply_exif.py:67 | comparison of shot numbers is total and transitive |
| Images.NumberedExample | apply_exif.py:67 | "roll3-12.jpg" is shot 12 |
| Images.LastHyphenExample | apply_exif.py:67 | "a-b-7.jpg" is shot 7 |
| Images.UnnumberedExample | apply_exif.py:67-69 | "scan.jpg" has no shot number |
| CsvRows.KeepRows | apply_exif.py:82-84 | the kept records are all non-empty and no more than were read |
| CsvRows.ReadRows | apply_exif.py:75-86 | the rows are non-empty and no more than the records |
| CsvRows.KeepRowsCounts | apply_exif.py:82-84 | each non-empty record is kept as often as it occurs, and empty records are dropped |
| CsvRows.KeepRowsAppend | apply_exif.py:82-84 | the filter keeps file order |
| CsvRows.KeepRowsNoBlanks | apply_exif.py:82-84 | a file without blank lines loses nothing |
| CsvRows.KeepRowsIdempotent | apply_exif.py:82-84 | filtering twice is filtering once |
| CsvRows.HeaderIsFirstRecord | apply_exif.py:80-84 | with a header, the first record is dropped whatever it is; without one, it is filtered like the rest |
| Exposure.SelectShutterAsWritten | apply_exif.py:103-111 | "-" means no exposure time; a text ending in `s` takes the reciprocal branch; everything else takes the seconds branch |
| Exposure.SelectShutter | apply_exif.py:103-111 | the same three-way choice, with the seconds branch dropping only the closing quote |
| Exposure.ReciprocalSelected | apply_exif.py:108-109 | "1/Ks" hands K to `float()` |
| Exposure.SecondsSelected | apply_exif.py:111 | `K"` hands K to `float()` (corrected slice) |
| Exposure.SecondsAsWrittenLosesDigit | apply_exif.py:111 | as written, `K"` hands K without its last character to `float()` |
| Exposure.SecondsAsWrittenExample | apply_exif.py:111 | `15"` is read as "1" as written, and as "15" corrected |
| Exposure.SecondsOf | apply_exif.py:103-111 | "-" gives no exposure time; the conversion raises exactly on a denominator that parses to zero; it gives no time exactly when the selected text does not parse; a time produced is the reciprocal of the denominator, or the parsed duration |
| Exposure.ShutterSeconds | apply_exif.py:103-111 | `ss_to_float` as written: "-" gives no exposure time; a text not ending in `s` gives whatever `float()` makes of `ss[:-2]`; a text ending in `s` gives the reciprocal of `float(ss[2:-1])`, raises exactly when that is zero, and gives no exposure time exactly when `float()` rejects it |
| Exposure.ShutterSecondsCorrected | apply_exif.py:103-111 | the same, with the seconds branch reading `ss[:-1]` |
| Exposure.ReciprocalBranchExamples | apply_exif.py:108-109 | the reciprocal branch skips two characters whatever they are: "2s" gives no exposure time and "0.5s" gives 1/5 |
| Exposure.ReciprocalSeconds | apply_exif.py:108-109 | the exposure time of "1/Ks" is the reciprocal of K when K is a non-zero number, as written and corrected |
| Exposure.WholeSecondsAsWritten | apply_exif.py:111 | as written, the exposure time of `K"` is whatever `float()` makes of K without its last character |
| Exposure.WholeSeconds | apply_exif.py:111 | corrected, the exposure time of `K"` is whatever `float()` makes of K |
| Exposure.SingleDigitSecondsExample | apply_exif.py:111 | as written, `2"` gives no exposure time, because `float('')` raises; corrected, it gives 2 seconds |
| Exposure.ApertureText | apply_exif.py:157-158 | one leading "f:" is removed, and any other text is unchanged |
| Exposure.ApertureForms | apply_exif.py:157-158 | "f:N" and "N" give the same text |
| Exposure.ApertureStripsOnce | apply_exif.py:157-158 | only one "f:" is removed |
| Exposure.ApertureValueForms | apply_exif.py:156-161 | "f:N" and "N" convert to the same aperture, or both fail |
| Dates.MonthOf | apply_exif.py:166 | a recognised `%b` month is in 1..12 and its text equals the English abbreviation ignoring case |
| Dates.MonthOfName | apply_exif.py:166 | every English abbreviation is recognised as its month |
| Dates.MatchCsvDate | apply_exif.py:166 | a matched date has at most four year digits, a month in 1..12, a day in 1..31, an hour in 0..23 and a minute in 0..59 |
| Dates.MonthOfIgnoringCase | apply_exif.py:166 | a three-letter text is read as month m exactly when it equals m's English abbreviation ignoring case |
| Dates.MatchSpelling | apply_exif.py:166 | the pattern reads every admissible spelling (any-case month and "at", whitespace runs, one- or two-digit day, hour and minute, four-digit year) as the fields it spells, and fails on it exactly when a field is out of the pattern's range |
| Dates.MatchedSpelling | apply_exif.py:166 | every text the pattern accepts is an admissible spelling of the fields it is read as |
| Dates.MatchCsvDateCharacterized | apply_exif.py:166 | a text is read as a date exactly when it is an admissible spelling of that date and the date's fields are in the pattern's range |
| Dates.LooseSpellingExample | apply_exif.py:166 | "dec  13,\t2023 AT 9:05" is read as 2023-12-13 09:05 |
| Dates.ParseCsvDate | apply_exif.py:166 | parsing succeeds exactly when the text matches the format and the fields name a real calendar date, and then returns the fields the pattern read; it raises the no-match error exactly when the pattern fails, and the year error exactly on year 0 |
| Dates.CsvSpelling | apply_exif.py:164 | the spreadsheet's rendering is an admissible spelling of the date |
| Dates.FormatCsvDate | apply_exif.py:164-166 | the pattern reads the spreadsheet rendering of any fields back, and fails exactly when a field is out of the pattern's range |
| Dates.ParseFormatted | apply_exif.py:166 | which error `strptime` raises on a rendered date: no match, year 0, or a day past the month's end |
| Dates.CsvRoundTrip | apply_exif.py:164-166 | every valid date survives rendering as spreadsheet text and parsing back |
| Dates.FormatExif | apply_exif.py:165-166 | the metadata rendering is 19 characters, ends in ":00", and reads back as the same date |
| Dates.ReformatDate | apply_exif.py:166 | the conversion succeeds exactly when `strptime` does, gives the metadata rendering of the fields the pattern read, and otherwise fails with `strptime`'s error |
| Dates.ReformatDateInverts | apply_exif.py:164-166 | a converted date is 19 characters with zero seconds and reads back as the date the pattern reads in the spreadsheet text, however loosely it is spelled |
| Dates.ReformatFormatted | apply_exif.py:164-166 | the spreadsheet rendering of a valid date converts to the metadata rendering of the same date |
| Dates.ReformatExample | apply_exif.py:164-166 | "Dec 13, 2023 at 13:36" becomes "2023:12:13 13:36:00" |
| Dates.LooseReformatExample | apply_exif.py:166 | "dec  13,\t2023 AT 9:05" becomes "2023:12:13 09:05:00" |
| Dates.CsvRenderExample | apply_exif.py:164 | the date 2023-12-13 13:36 renders as "Dec 13, 2023 at 13:36" |
| Dates.MissingLeapDayExample | apply_exif.py:166 | "Feb 29, 2023 at 10:00" raises a day-out-of-range error |
| Dates.LeapDayExample | apply_exif.py:166 | "Feb 29, 2024 at 10:00" converts |
| Dates.OutOfRangeExamples | apply_exif.py:166 | hour 24 and minute 60 do not match; year 0 matches but raises |
| Batch.ParseCamera | apply_exif.py:30 | exactly "canonet" and "fm10" are accepted, each as its own camera |
| Batch.CameraFlags | apply_exif.py:180-184 | the camera section is Make, Model and LensMake, with the same maker for body and lens |
| Batch.CameraArgumentMakers | apply_exif.py:180-184 | "canonet" gives Make "Canon", Model "Canon Canonet QL17 Giii" and LensMake "Canon"; "fm10" gives Make "Nikon", Model "Nikon FM10" and LensMake "Nikon"; each maker comes only from its own argument |
| Batch.GpsFlags | apply_exif.py:169-172 | the GPS section is empty exactly when either coordinate is empty |
| Batch.GpsTags | apply_exif.py:169-172 | the GPS section sets longitude and latitude with their references and the altitude when both coordinates are present, and nothing otherwise |
| Batch.NumberFlag | apply_exif.py:177-178 | a numeric flag is present exactly when the value converted and is non-zero |
| Batch.RowFlags | apply_exif.py:187-201 | the date flag comes first, and a command holds ten fixed flags plus the GPS, exposure and f-number sections |
| Batch.RowTextFlags | apply_exif.py:187-201 | the command copies the location, the focal length (twice), the lens model and the ISO unchanged, names the artist, and holds every camera flag |
| Batch.NumberFlagTags | apply_exif.py:177-178 | the tag of a numeric flag, when present |
| Batch.RowTags | apply_exif.py:187-201 | the tags of a row's command in order: date, GPS, description, artist, exposure, f-number, focal lengths, camera, lens model, ISO |
| Batch.RowTagMembership | apply_exif.py:169-201 | a tag is in a row's command exactly when it is a fixed tag, or a GPS tag with both coordinates present, or the exposure or f-number tag with a non-zero value |
| Batch.SectionsInRow | apply_exif.py:187-201 | every flag of the GPS, exposure and f-number sections is in the command |
| Batch.TagRow | apply_exif.py:133-201 | a command is for the image it was built for |
| Batch.TagRowErrors | apply_exif.py:134-166 | a row raises for being too short, for a zero shutter denominator, or for its date, each exactly when the earlier steps passed |
| Batch.TagRowParts | apply_exif.py:134-166 | a tagged row had at least thirteen fields, a converted shutter speed and a converted date, and its flags were built from them |
| Batch.TagRowGps | apply_exif.py:169-172 | longitude and latitude are tagged exactly when both coordinates are non-empty |
| Batch.TagRowGpsValues | apply_exif.py:169-172 | when tagged, the coordinates are copied with the fixed west and north references, and the altitude is "0" above sea level |
| Batch.TagRowExposure | apply_exif.py:149-177 | the exposure time is tagged exactly when `ss_to_float` as written converted the shutter speed to a non-zero number, and carries that number |
| Batch.SingleDigitSecondsUntagged | apply_exif.py:149-177 | a row whose shutter speed is one digit and a quote, such as `2"`, is tagged without an exposure time |
| Batch.TagRowFNumber | apply_exif.py:155-161 | the f-number is tagged exactly when the aperture, without a leading "f:", converted to a non-zero number, and carries that number |
| Batch.TagRowFixedFlags | apply_exif.py:166-199 | a tagged row's first flag carries the converted date; its location, focal length, lens model and ISO are copied unchanged; the camera's maker flags are all present |
| Batch.GpsText | apply_exif.py:169-172 | as written, the GPS fragment is empty exactly when either coordinate is, and otherwise ends in `-GPSAltitude="0"` with no space |
| Batch.GpsTextCorrected | apply_exif.py:169-172 | corrected, the fragment ends in `-GPSAltitude="0"` and a space |
| Batch.DescriptionText | apply_exif.py:191 | the fragment after the GPS fragment begins `-ImageDescription="` |
| Batch.GpsRunsIntoDescription | apply_exif.py:170-191 | as written, a geotagged command reads `-GPSAltitude="0"-ImageDescription="`: one shell word |
| Batch.GpsSeparatedFromDescription | apply_exif.py:170-191 | corrected, a space separates the altitude and the description arguments |
| Batch.CountsMatch | apply_exif.py:88-101 | the batch goes ahead exactly when there are as many images as data rows |
| Batch.MapUntilFailure | apply_exif.py:133 | a pairwise map that stops at the first failure: every result before it is a success, and the failure's position and error are reported |
| Batch.TagRows | apply_exif.py:133-201 | the loop tags rows in order until one raises; it either finishes with one command per image or stops at the raising row with the commands of the rows before it |
| Batch.Run | apply_exif.py:130-133 | a count mismatch returns before any image is tagged; otherwise each command is the row's conversion, and a stop names the row that raised |
| Batch.CrashStopsBatch | apply_exif.py:204-211 | a row that raises stops the batch at or before that row, and no row after it is tagged |
| Batch.FinishesIffAllRowsConvert | apply_exif.py:133-201 | the batch finishes exactly when every row converts |
| Text.SliceBound | apply_exif.py:109-111 | a negative slice bound counts from the end, and every bound is clamped to the text's length |
| Text.Slice | apply_exif.py:109-111 | a slice holds the characters from the normalised lower bound up to the normalised upper one, and is empty when they cross |
| Text.RFind | apply_exif.py:62-67 | the result is the last position holding the character, or none when no position holds it |
| Batch.TagDirectory | apply_exif.py:113-133 | a count mismatch is reported exactly when the ordered frames and the data rows differ in number; the i-th command names the i-th ordered frame, which is a `.jpg` file |

## Left out

- The tkinter windows, the Treeview widget and its item identifiers: the
  table is a sequence of value rows. The "Invalid index" message is not
  modelled; only the unchanged table is.
- `test_dropdown.py` and `test_col_width.py`: they only build widgets.
- `check_exiftool` and `os.system`: whether exiftool is installed, and
  running the command. How the shell splits the command text into
  arguments is not modelled; only the missing space after the GPS fragment
  is (see Findings).
- Batch.RowFlags: lists `-ImageDescription` as an argument of its own for
  geotagged rows too, as the command evidently intends. As written, the
  shell passes it joined to the altitude argument (see Findings), and what
  `exiftool` then does with that word is not modelled.
- `float()`: it is the `parse` parameter, with no model of decimal syntax,
  `inf`, `nan`, rounding, or how Python prints a float into the command.
- Exposure.ApertureValue: it has no contract of its own, because it is only
  `parse` applied to the stripped text. Its properties are stated through
  `ApertureValueForms` and `Batch.TagRowFNumber`.
- Images.ParseInt: `int()` is restricted to ASCII digits. Signs,
  surrounding whitespace, underscores and non-ASCII digits are not accepted
  as Python would accept them.
- Dates.MonthOf: `%b` is the English (C locale) abbreviations only.
- Dates.MatchCsvDate: ASCII only. Python's pattern is a Unicode `str`
  pattern without `re.ASCII`, so `\d` also accepts other Unicode decimal
  digits, which `int()` then reads ("Dec ١٣, ٢٠٢٣ at ١٣:٣٦" converts in
  Python and is rejected here). `\s` also accepts whitespace beyond the
  ASCII range (the model does cover the ASCII separators U+001C..U+001F,
  which Python counts as whitespace), and
  `re.IGNORECASE` folds case by Unicode rules, so "ſep" matches "Sep" in
  Python and not here.
- Dates.FormatCsvDate and Dates.FormatExif: years below 1000 are padded to
  four digits. Platform `strftime` differences are not modelled.
- Images.OrderImages: the name-order fallback compares bare file names.
  `Path` objects in one directory compare that way on POSIX systems. The
  case-insensitive comparison Windows paths use is not modelled.
- Directory listing, opening and reading the CSV file, `csv.reader` field
  splitting, `argparse`, printing, and `KeyboardInterrupt`: the names, the
  records and the camera arrive as values.
- `zip` truncation: after the count check, images and rows have the same
  length, so truncation cannot happen and is not modelled.

## Findings

| source | as written | input that shows it | evidently intended | confidence | as-written member | corrected member |
|---|---|---|---|---|---|---|
| apply_exif.py:111 | `float(ss[:-2])` drops the closing quote and the last digit of a whole-second shutter speed | `15"` is read as 1 second; `2"` becomes the empty text, which `float()` rejects, so no exposure time is written | `float(ss[:-1])`, dropping only the quote, so `15"` is 15 seconds | high; not executed | Exposure.ShutterSeconds (Exposure.WholeSecondsAsWritten, Exposure.SingleDigitSecondsExample, Exposure.SecondsAsWrittenExample, Batch.SingleDigitSecondsUntagged) | Exposure.ShutterSecondsCorrected (Exposure.WholeSeconds, Exposure.SingleDigitSecondsExample) |
| apply_exif.py:170 | the GPS fragment ends `-GPSAltitude="0"` with no trailing space, and the next fragment begins `-ImageDescription=` | any row with both coordinates, e.g. longitude "123.1" and latitude "49.2": the command text holds `-GPSAltitude="0"-ImageDescription="..."`, one shell word | a trailing space after `-GPSAltitude="0"`, like every other fragment | high; not executed | Batch.GpsText (Batch.GpsRunsIntoDescription) | Batch.GpsTextCorrected (Batch.GpsSeparatedFromDescription) |

The batch tags exposure times with the conversion as written,
`Exposure.ShutterSeconds`. Its flag list, `Batch.RowFlags`, keeps the
description a separate argument, as the corrected GPS fragment does.

=== FILE: batch.dfy ===
/** The tagging loop of `main`: one `exiftool` invocation per image, with the
    image's spreadsheet row turned into metadata flags. The command is kept
    as the list of `-Tag="value"` flags it carries and the image it names;
    quoting it into a shell string and running it is not modelled. */
module Batch {

  import opened Wrappers
  import Dates
  import Exposure
  import Images
  import CsvRows
  import Strings = Text

  type Record = CsvRows.Record

  /** The positions of the spreadsheet columns that `main` reads. */
  const EXP_TIME: nat := 1
  const APERTURE: nat := 2
  const FOCAL_LENGTH: nat := 3
  const LENS_MODEL: nat := 5
  const ISO_SPEED: nat := 7
  const DATE: nat := 9
  const LOCATION: nat := 10
  const LATITUDE: nat := 11
  const LONGITUDE: nat := 12

  /** The fixed photographer credit written on every image. */
  const ARTIST: string := "Muchen He"

  /** The `camera` argument; the argument parser admits only these two. */
  datatype Camera = Canonet | Fm10

  function ParseCamera(arg: string): (r: Option<Camera>)
    ensures r == Some(Canonet) <==> arg == "canonet"
    ensures r == Some(Fm10) <==> arg == "fm10"
    ensures r.None? <==> arg != "canonet" && arg != "fm10"
  {
    if arg == "canonet" then Some(Canonet) else if arg == "fm10" then Some(Fm10) else None
  }

  /** A flag value: text copied from the row, or a number `float()` produced. */
  datatype Value = Text(text: string) | Number(number: real)

  /** The `exiftool` tags the command sets. */
  datatype Tag =
    | AllDates
    | GPSLongitudeRef | GPSLongitude | GPSLatitudeRef | GPSLatitude | GPSAltitudeRef | GPSAltitude
    | ImageDescription | Artist | ExposureTime | FNumber | FocalLength | FocalLengthIn35mmFormat
    | Make | Model | LensMake | LensModel | ISO

  /** One `-Tag="value"` argument. */
  datatype Flag = Flag(tag: Tag, value: Value)

  datatype Command = Command(flags: seq<Flag>, image: string)

  /** The tags of a command, in order. */
  function Tags(flags: seq<Flag>): (tags: seq<Tag>)
    ensures |tags| == |flags|
    ensures forall i | 0 <= i < |flags| :: tags[i] == flags[i].tag
  {
    seq(|flags|, i requires 0 <= i < |flags| => flags[i].tag)
  }

  lemma {:induction false} TagsAppend(a: seq<Flag>, b: seq<Flag>)
    ensures Tags(a + b) == Tags(a) + Tags(b)
  {
  }

  /** Why a row stops the batch. Each is an exception that escapes `main`:
      an `IndexError` for a row with too few fields, a `ZeroDivisionError`
      from a "1/0s" shutter speed, and a `ValueError` from the date. */
  datatype RowError = ShortRow | ZeroShutter | BadDate(error: Dates.DateError)

  /** The maker and model flags of each camera. */
  function CameraFlags(camera: Camera): (flags: seq<Flag>)
    ensures |flags| == 3
    ensures flags[0].tag == Make && flags[1].tag == Model && flags[2].tag == LensMake
    ensures flags[0].value == flags[2].value
  {
    match camera
    case Canonet => [Flag(Make, Text("Canon")), Flag(Model, Text("Canon Canonet QL17 Giii")), Flag(LensMake, Text("Canon"))]
    case Fm10 => [Flag(Make, Text("Nikon")), Flag(Model, Text("Nikon FM10")), Flag(LensMake, Text("Nikon"))]
  }

  /** The `camera` argument picks the maker: "canonet" a Canon, "fm10" a
      Nikon, each with its own model name. */
  lemma {:induction false} CameraArgumentMakers(arg: string)
    ensures ParseCamera(arg).Some? ==>
      var f := CameraFlags(ParseCamera(arg).value);
      && (f[0] == Flag(Make, Text("Canon")) <==> arg == "canonet")
      && (arg == "canonet" ==> f[1] == Flag(Model, Text("Canon Canonet QL17 Giii")) && f[2] == Flag(LensMake, Text("Canon")))
      && (f[0] == Flag(Make, Text("Nikon")) <==> arg == "fm10")
      && (arg == "fm10" ==> f[1] == Flag(Model, Text("Nikon FM10")) && f[2] == Flag(LensMake, Text("Nikon")))
  {
  }

  /** The GPS flags: present only when both coordinates are non-empty, with
      the hemisphere fixed to west and north and the altitude to zero. */
  function GpsFlags(longitude: string, latitude: string): (flags: seq<Flag>)
    ensures flags == [] <==> longitude == [] || latitude == []
  {
    if longitude != [] && latitude != [] then
      [Flag(GPSLongitudeRef, Text("W")), Flag(GPSLongitude, Text(longitude)),
       Flag(GPSLatitudeRef, Text("N")), Flag(GPSLatitude, Text(latitude)),
       Flag(GPSAltitudeRef, Text("Above Sea Level")), Flag(GPSAltitude, Text("0"))]
    else []
  }

  /** A numeric flag, present when the value is truthy: the empty string a
      failed conversion leaves, and `0.0`, are both falsy. */
  function NumberFlag(tag: Tag, value: Option<real>): (flags: seq<Flag>)
    ensures |flags| <= 1
    ensures flags != [] <==> value.Some? && value.value != 0.0
  {
    if value.Some? && value.value != 0.0 then [Flag(tag, Number(value.value))] else []
  }

  /** The flags of one row, in the order the command lists them: the date
      first, ten flags every command carries, and the sections present. */
  function RowFlags(row: Record, date: string, shutter: Option<real>, aperture: Option<real>, camera: Camera): (flags: seq<Flag>)
    requires |row| > LONGITUDE
    ensures flags != [] && flags[0] == Flag(AllDates, Text(date))
    ensures |flags| == 10 + |GpsFlags(row[LONGITUDE], row[LATITUDE])|
                          + |NumberFlag(ExposureTime, shutter)| + |NumberFlag(FNumber, aperture)|
  {
    [Flag(AllDates, Text(date))]
    + GpsFlags(row[LONGITUDE], row[LATITUDE])
    + [Flag(ImageDescription, Text(row[LOCATION])), Flag(Artist, Text(ARTIST))]
    + NumberFlag(ExposureTime, shutter)
    + NumberFlag(FNumber, aperture)
    + [Flag(FocalLength, Text(row[FOCAL_LENGTH])), Flag(FocalLengthIn35mmFormat, Text(row[FOCAL_LENGTH]))]
    + CameraFlags(camera)
    + [Flag(LensModel, Text(row[LENS_MODEL])), Flag(ISO, Text(row[ISO_SPEED]))]
  }

  /** One pass of the loop body: read the fields, convert the shutter speed,
      the aperture and the date, in that order, and assemble the command. */
  function TagRow(image: string, row: Record, camera: Camera, parse: string -> Option<real>): (r: Result<Command, RowError>)
    ensures r.Success? ==> r.value.image == image
  {
    if |row| <= LONGITUDE then Failure(ShortRow)
    else
      match Exposure.ShutterSeconds(row[EXP_TIME], parse)
      case Failure(_) => Failure(ZeroShutter)
      case Success(shutter) =>
        var aperture := Exposure.ApertureValue(row[APERTURE], parse);
        match Dates.ReformatDate(row[DATE])
        case Failure(e) => Failure(BadDate(e))
        case Success(date) => Success(Command(RowFlags(row, date, shutter, aperture, camera), image))
  }

  /** Which exception a row raises: a short row first, then a zero shutter
      denominator, then a date `strptime` rejects, in the order the loop body
      meets them. */
  lemma {:induction false} TagRowErrors(image: string, row: Record, camera: Camera, parse: string -> Option<real>)
    ensures var r := TagRow(image, row, camera, parse);
      && (r == Failure(ShortRow) <==> |row| <= LONGITUDE)
      && (r == Failure(ZeroShutter) <==>
           |row| > LONGITUDE && Exposure.ShutterSeconds(row[EXP_TIME], parse).Failure?)
      && ((exists e :: r == Failure(BadDate(e))) <==>
           && |row| > LONGITUDE && Exposure.ShutterSeconds(row[EXP_TIME], parse).Success?
           && Dates.ReformatDate(row[DATE]).Failure?)
      && (r.Failure? && r.error.BadDate? ==> r.error.error == Dates.ReformatDate(row[DATE]).error)
  {
  }

  /** The tags of a row's command, section by section: only the GPS,
      exposure and f-number sections vary. */
  lemma {:induction false} RowTags(row: Record, date: string, shutter: Option<real>, aperture: Option<real>, camera: Camera)
    requires |row| > LONGITUDE
    ensures Tags(RowFlags(row, date, shutter, aperture, camera))
         == [AllDates] + Tags(GpsFlags(row[LONGITUDE], row[LATITUDE])) + [ImageDescription, Artist]
          + Tags(NumberFlag(ExposureTime, shutter)) + Tags(NumberFlag(FNumber, aperture))
          + [FocalLength, FocalLengthIn35mmFormat, Make, Model, LensMake, LensModel, ISO]
  {
    var gps := GpsFlags(row[LONGITUDE], row[LATITUDE]);
    var ex := NumberFlag(ExposureTime, shutter);
    var fn := NumberFlag(FNumber, aperture);
    TagsOfSections(
      [Flag(AllDates, Text(date))], gps,
      [Flag(ImageDescription, Text(row[LOCATION])), Flag(Artist, Text(ARTIST))], ex, fn,
      [Flag(FocalLength, Text(row[FOCAL_LENGTH])), Flag(FocalLengthIn35mmFormat, Text(row[FOCAL_LENGTH]))],
      CameraFlags(camera), [Flag(LensModel, Text(row[LENS_MODEL])), Flag(ISO, Text(row[ISO_SPEED]))]);
    TagsOfOne(Flag(AllDates, Text(date)));
    TagsOfTwo(Flag(ImageDescription, Text(row[LOCATION])), Flag(Artist, Text(ARTIST)));
    TagsOfTwo(Flag(FocalLength, Text(row[FOCAL_LENGTH])), Flag(FocalLengthIn35mmFormat, Text(row[FOCAL_LENGTH])));
    TagsOfTwo(Flag(LensModel, Text(row[LENS_MODEL])), Flag(ISO, Text(row[ISO_SPEED])));
    assert Tags(CameraFlags(camera)) == [Make, Model, LensMake];
  }

  /** The text columns are copied into the command unchanged, and the maker
      flags follow the camera. */
  lemma {:induction false} RowTextFlags(row: Record, date: string, shutter: Option<real>, aperture: Option<real>, camera: Camera)
    requires |row| > LONGITUDE
    ensures var flags := RowFlags(row, date, shutter, aperture, camera);
      && Flag(ImageDescription, Text(row[LOCATION])) in flags && Flag(Artist, Text(ARTIST)) in flags
      && Flag(FocalLength, Text(row[FOCAL_LENGTH])) in flags
      && Flag(FocalLengthIn35mmFormat, Text(row[FOCAL_LENGTH])) in flags
      && Flag(LensModel, Text(row[LENS_MODEL])) in flags && Flag(ISO, Text(row[ISO_SPEED])) in flags
      && (forall f | f in CameraFlags(camera) :: f in flags)
  {
  }

  lemma {:induction false} TagsOfOne(f: Flag)
    ensures Tags([f]) == [f.tag]
  {
  }

  lemma {:induction false} TagsOfTwo(f: Flag, g: Flag)
    ensures Tags([f, g]) == [f.tag, g.tag]
  {
  }

  /** The tags of the eight sections of a row, joined. */
  lemma {:induction false} TagsOfSections(a: seq<Flag>, b: seq<Flag>, c: seq<Flag>, d: seq<Flag>,
                                          e: seq<Flag>, f: seq<Flag>, g: seq<Flag>, h: seq<Flag>)
    ensures Tags(a + b + c + d + e + f + g + h)
         == Tags(a) + Tags(b) + Tags(c) + Tags(d) + Tags(e) + Tags(f) + Tags(g) + Tags(h)
  {
    TagsAppend(a + b + c + d + e + f + g, h);
    TagsAppend(a + b + c + d + e + f, g);
    TagsAppend(a + b + c + d + e, f);
    TagsAppend(a + b + c + d, e);
    TagsAppend(a + b + c, d);
    TagsAppend(a + b, c);
    TagsAppend(a, b);
  }

  /** A tag is in a row's command exactly when it is one of the fixed tags,
      or a tag of a section that is present. */
  lemma {:induction false} RowTagMembership(row: Record, date: string, shutter: Option<real>, aperture: Option<real>, camera: Camera, t: Tag)
    requires |row| > LONGITUDE
    ensures t in Tags(RowFlags(row, date, shutter, aperture, camera)) <==>
      || t in {AllDates, ImageDescription, Artist, FocalLength, FocalLengthIn35mmFormat, Make, Model, LensMake, LensModel, ISO}
      || (t in {GPSLongitudeRef, GPSLongitude, GPSLatitudeRef, GPSLatitude, GPSAltitudeRef, GPSAltitude}
          && row[LONGITUDE] != [] && row[LATITUDE] != [])
      || (t == ExposureTime && shutter.Some? && shutter.value != 0.0)
      || (t == FNumber && aperture.Some? && aperture.value != 0.0)
  {
    RowTags(row, date, shutter, aperture, camera);
    JoinedSections(Tags(GpsFlags(row[LONGITUDE], row[LATITUDE])),
                   Tags(NumberFlag(ExposureTime, shutter)), Tags(NumberFlag(FNumber, aperture)), t);
    GpsTagMembership(row[LONGITUDE], row[LATITUDE], t);
    NumberFlagMembership(ExposureTime, shutter, t);
    NumberFlagMembership(FNumber, aperture, t);
  }

  /** Membership in the tags of a row, given the tags of its three varying
      sections. */
  lemma {:induction false} JoinedSections(g: seq<Tag>, e: seq<Tag>, f: seq<Tag>, t: Tag)
    ensures t in [AllDates] + g + [ImageDescription, Artist] + e + f
                 + [FocalLength, FocalLengthIn35mmFormat, Make, Model, LensMake, LensModel, ISO]
        <==> || t in {AllDates, ImageDescription, Artist, FocalLength, FocalLengthIn35mmFormat, Make, Model, LensMake, LensModel, ISO}
             || t in g || t in e || t in f
  {
    var r := [FocalLength, FocalLengthIn35mmFormat, Make, Model, LensMake, LensModel, ISO];
    InJoin([AllDates] + g + [ImageDescription, Artist] + e + f, r, t);
    InJoin([AllDates] + g + [ImageDescription, Artist] + e, f, t);
    InJoin([AllDates] + g + [ImageDescription, Artist], e, t);
    InJoin([AllDates] + g, [ImageDescription, Artist], t);
    InJoin([AllDates], g, t);
  }

  lemma {:induction false} GpsTagMembership(longitude: string, latitude: string, t: Tag)
    ensures t in Tags(GpsFlags(longitude, latitude)) <==>
      t in {GPSLongitudeRef, GPSLongitude, GPSLatitudeRef, GPSLatitude, GPSAltitudeRef, GPSAltitude}
      && longitude != [] && latitude != []
  {
    GpsTags(longitude, latitude);
  }

  lemma {:induction false} NumberFlagMembership(tag: Tag, value: Option<real>, t: Tag)
    ensures t in Tags(NumberFlag(tag, value)) <==> t == tag && value.Some? && value.value != 0.0
  {
    NumberFlagTags(tag, value);
  }

  lemma {:induction false} InJoin<T>(a: seq<T>, b: seq<T>, x: T)
    ensures x in a + b <==> x in a || x in b
  {
    if x in a + b {
      var i :| 0 <= i < |a + b| && (a + b)[i] == x;
      if i < |a| {
        assert a[i] == x;
      } else {
        assert b[i - |a|] == x;
      }
    }
  }

  lemma {:induction false} RowGpsTags(row: Record, date: string, shutter: Option<real>, aperture: Option<real>, camera: Camera)
    requires |row| > LONGITUDE
    ensures var tags := Tags(RowFlags(row, date, shutter, aperture, camera));
      && (GPSLongitude in tags <==> row[LONGITUDE] != [] && row[LATITUDE] != [])
      && (GPSLatitude in tags <==> row[LONGITUDE] != [] && row[LATITUDE] != [])
  {
    RowTagMembership(row, date, shutter, aperture, camera, GPSLongitude);
    RowTagMembership(row, date, shutter, aperture, camera, GPSLatitude);
  }

  lemma {:induction false} RowExposureTag(row: Record, date: string, shutter: Option<real>, aperture: Option<real>, camera: Camera)
    requires |row| > LONGITUDE
    ensures ExposureTime in Tags(RowFlags(row, date, shutter, aperture, camera)) <==> shutter.Some? && shutter.value != 0.0
  {
    RowTagMembership(row, date, shutter, aperture, camera, ExposureTime);
  }

  lemma {:induction false} RowFNumberTag(row: Record, date: string, shutter: Option<real>, aperture: Option<real>, camera: Camera)
    requires |row| > LONGITUDE
    ensures FNumber in Tags(RowFlags(row, date, shutter, aperture, camera)) <==> aperture.Some? && aperture.value != 0.0
  {
    RowTagMembership(row, date, shutter, aperture, camera, FNumber);
  }

  lemma {:induction false} NumberFlagTags(tag: Tag, value: Option<real>)
    ensures Tags(NumberFlag(tag, value)) == if value.Some? && value.value != 0.0 then [tag] else []
  {
  }

  /** The converted fields a successful row's command was built from. */
  lemma {:induction false} TagRowParts(image: string, row: Record, camera: Camera, parse: string -> Option<real>)
    returns (date: string, shutter: Option<real>, aperture: Option<real>)
    requires TagRow(image, row, camera, parse).Success?
    ensures |row| > LONGITUDE
    ensures Exposure.ShutterSeconds(row[EXP_TIME], parse) == Success(shutter)
    ensures aperture == parse(Exposure.ApertureText(row[APERTURE]))
    ensures Dates.ReformatDate(row[DATE]) == Success(date)
    ensures TagRow(image, row, camera, parse).value.flags == RowFlags(row, date, shutter, aperture, camera)
  {
    shutter := Exposure.ShutterSeconds(row[EXP_TIME], parse).value;
    aperture := Exposure.ApertureValue(row[APERTURE], parse);
    date := Dates.ReformatDate(row[DATE]).value;
  }

  /** Every flag of a section is a flag of the row's command. */
  lemma {:induction false} SectionsInRow(row: Record, date: string, shutter: Option<real>, aperture: Option<real>, camera: Camera)
    requires |row| > LONGITUDE
    ensures var flags := RowFlags(row, date, shutter, aperture, camera);
      && (forall f | f in GpsFlags(row[LONGITUDE], row[LATITUDE]) :: f in flags)
      && (forall f | f in NumberFlag(ExposureTime, shutter) :: f in flags)
      && (forall f | f in NumberFlag(FNumber, aperture) :: f in flags)
  {
  }

  lemma {:induction false} GpsTags(longitude: string, latitude: string)
    ensures Tags(GpsFlags(longitude, latitude))
         == if longitude != [] && latitude != []
            then [GPSLongitudeRef, GPSLongitude, GPSLatitudeRef, GPSLatitude, GPSAltitudeRef, GPSAltitude]
            else []
    ensures GPSLongitude in Tags(GpsFlags(longitude, latitude)) <==> longitude != [] && latitude != []
    ensures GPSLatitude in Tags(GpsFlags(longitude, latitude)) <==> longitude != [] && latitude != []
  {
    if longitude != [] && latitude != [] {
      assert Tags(GpsFlags(longitude, latitude))[1] == GPSLongitude;
      assert Tags(GpsFlags(longitude, latitude))[3] == GPSLatitude;
    }
  }

  /** GPS flags are in the command exactly when both coordinates are
      non-empty. */
  lemma {:induction false} TagRowGps(image: string, row: Record, camera: Camera, parse: string -> Option<real>)
    requires TagRow(image, row, camera, parse).Success?
    ensures |row| > LONGITUDE
    ensures var flags := TagRow(image, row, camera, parse).value.flags;
      && (GPSLongitude in Tags(flags) <==> row[LONGITUDE] != [] && row[LATITUDE] != [])
      && (GPSLatitude in Tags(flags) <==> row[LONGITUDE] != [] && row[LATITUDE] != [])
  {
    var date, shutter, aperture := TagRowParts(image, row, camera, parse);
    RowGpsTags(row, date, shutter, aperture, camera);
  }

  /** When present, the GPS flags carry the coordinates with the fixed west
      and north references, and the altitude fixed at sea level. */
  lemma {:induction false} TagRowGpsValues(image: string, row: Record, camera: Camera, parse: string -> Option<real>)
    requires TagRow(image, row, camera, parse).Success?
    ensures |row| > LONGITUDE
    ensures var flags := TagRow(image, row, camera, parse).value.flags;
      row[LONGITUDE] != [] && row[LATITUDE] != [] ==>
        && Flag(GPSLongitudeRef, Text("W")) in flags
        && Flag(GPSLongitude, Text(row[LONGITUDE])) in flags
        && Flag(GPSLatitudeRef, Text("N")) in flags
        && Flag(GPSLatitude, Text(row[LATITUDE])) in flags
        && Flag(GPSAltitudeRef, Text("Above Sea Level")) in flags
        && Flag(GPSAltitude, Text("0")) in flags
  {
    var date, shutter, aperture := TagRowParts(image, row, camera, parse);
    var gps := GpsFlags(row[LONGITUDE], row[LATITUDE]);
    SectionsInRow(row, date, shutter, aperture, camera);
    if gps != [] {
      assert gps[0] in gps && gps[1] in gps && gps[2] in gps && gps[3] in gps && gps[4] in gps && gps[5] in gps;
    }
  }

  /** The exposure-time flag is in the command exactly when the shutter
      speed converted to a non-zero number, and carries that number. */
  lemma {:induction false} TagRowExposure(image: string, row: Record, camera: Camera, parse: string -> Option<real>)
    requires TagRow(image, row, camera, parse).Success?
    ensures |row| > LONGITUDE && Exposure.ShutterSeconds(row[EXP_TIME], parse).Success?
    ensures var flags := TagRow(image, row, camera, parse).value.flags;
      var shutter := Exposure.ShutterSeconds(row[EXP_TIME], parse).value;
      && (ExposureTime in Tags(flags) <==> shutter.Some? && shutter.value != 0.0)
      && (shutter.Some? && shutter.value != 0.0 ==> Flag(ExposureTime, Number(shutter.value)) in flags)
  {
    var date, shutter, aperture := TagRowParts(image, row, camera, parse);
    RowExposureTag(row, date, shutter, aperture, camera);
    SectionsInRow(row, date, shutter, aperture, camera);
  }

  /** The f-number flag is in the command exactly when the aperture, with a
      leading "f:" removed, converted to a non-zero number. */
  lemma {:induction false} TagRowFNumber(image: string, row: Record, camera: Camera, parse: string -> Option<real>)
    requires TagRow(image, row, camera, parse).Success?
    ensures |row| > LONGITUDE
    ensures var flags := TagRow(image, row, camera, parse).value.flags;
      var aperture := parse(Exposure.ApertureText(row[APERTURE]));
      && (FNumber in Tags(flags) <==> aperture.Some? && aperture.value != 0.0)
      && (aperture.Some? && aperture.value != 0.0 ==> Flag(FNumber, Number(aperture.value)) in flags)
  {
    var date, shutter, aperture := TagRowParts(image, row, camera, parse);
    RowFNumberTag(row, date, shutter, aperture, camera);
    SectionsInRow(row, date, shutter, aperture, camera);
  }

  /** The date flag carries the converted date, the text columns are copied
      unchanged, and the maker flags follow the camera. */
  lemma {:induction false} TagRowFixedFlags(image: string, row: Record, camera: Camera, parse: string -> Option<real>)
    requires TagRow(image, row, camera, parse).Success?
    ensures |row| > LONGITUDE && Dates.ReformatDate(row[DATE]).Success?
    ensures var flags := TagRow(image, row, camera, parse).value.flags;
      && flags[0] == Flag(AllDates, Text(Dates.ReformatDate(row[DATE]).value))
      && Flag(ImageDescription, Text(row[LOCATION])) in flags
      && Flag(FocalLength, Text(row[FOCAL_LENGTH])) in flags
      && Flag(LensModel, Text(row[LENS_MODEL])) in flags
      && Flag(ISO, Text(row[ISO_SPEED])) in flags
      && (forall f | f in CameraFlags(camera) :: f in flags)
  {
    var date, shutter, aperture := TagRowParts(image, row, camera, parse);
    RowTextFlags(row, date, shutter, aperture, camera);
  }

  /** A one-digit whole-second shutter speed such as `2"` is not tagged: the
      conversion as written hands the empty text to `float()`. */
  lemma {:induction false} SingleDigitSecondsUntagged(image: string, row: Record, camera: Camera, parse: string -> Option<real>, d: char)
    requires |row| > LONGITUDE && row[EXP_TIME] == [d, '"'] && parse("") == None
    requires TagRow(image, row, camera, parse).Success?
    ensures ExposureTime !in Tags(TagRow(image, row, camera, parse).value.flags)
  {
    OneDigitShutter(d, parse);
    TagRowExposure(image, row, camera, parse);
  }

  lemma {:induction false} OneDigitShutter(d: char, parse: string -> Option<real>)
    requires parse("") == None
    ensures Exposure.ShutterSeconds([d, '"'], parse) == Success(None)
  {
    Exposure.WholeSecondsAsWritten([d], parse);
    assert [d] + "\"" == [d, '"'];
    assert [d][..0] == "";
  }

  /** The last argument of the GPS fragment and the start of the argument
      that follows it. */
  const ALTITUDE_ARG: string := "-GPSAltitude=\"0\""
  const DESCRIPTION_ARG: string := "-ImageDescription=\""

  /** The GPS fragment of the command text as written: unlike every other
      fragment it ends without a space. */
  function GpsText(longitude: string, latitude: string): (t: string)
    ensures longitude != [] && latitude != [] ==> Strings.EndsWith(t, ALTITUDE_ARG)
    ensures t == [] <==> longitude == [] || latitude == []
  {
    if longitude != [] && latitude != [] then
      "-GPSLongitudeRef=\"W\" -GPSLongitude=\"" + longitude + "\" -GPSLatitudeRef=\"N\" -GPSLatitude=\""
      + latitude + "\" -GPSAltitudeRef=\"Above Sea Level\" " + ALTITUDE_ARG
    else ""
  }

  /** The GPS fragment ending in a space, like the fragments around it. */
  function GpsTextCorrected(longitude: string, latitude: string): (t: string)
    ensures longitude != [] && latitude != [] ==> Strings.EndsWith(t, ALTITUDE_ARG + " ")
    ensures t == [] <==> longitude == [] || latitude == []
  {
    var g := GpsText(longitude, latitude);
    if g == [] then [] else g + " "
  }

  /** The fragment that follows the GPS fragment in the command text. */
  function DescriptionText(location: string): (t: string)
    ensures Strings.StartsWith(t, DESCRIPTION_ARG)
  {
    DESCRIPTION_ARG + location + "\" "
  }

  /** As written, a geotagged row's altitude argument runs into the
      description argument with no space between them, so the shell hands
      `exiftool` one word and the description is never written as a tag. */
  lemma {:induction false} GpsRunsIntoDescription(longitude: string, latitude: string, location: string)
    requires longitude != [] && latitude != []
    ensures var g := GpsText(longitude, latitude);
      (g + DescriptionText(location))[|g| - |ALTITUDE_ARG|..|g| + |DESCRIPTION_ARG|] == ALTITUDE_ARG + DESCRIPTION_ARG
  {
    Seam(GpsText(longitude, latitude), DescriptionText(location), ALTITUDE_ARG, DESCRIPTION_ARG);
  }

  /** Corrected, a space separates the two arguments. */
  lemma {:induction false} GpsSeparatedFromDescription(longitude: string, latitude: string, location: string)
    requires longitude != [] && latitude != []
    ensures var g := GpsTextCorrected(longitude, latitude);
      (g + DescriptionText(location))[|g| - |ALTITUDE_ARG + " "|..|g| + |DESCRIPTION_ARG|] == ALTITUDE_ARG + " " + DESCRIPTION_ARG
  {
    Seam(GpsTextCorrected(longitude, latitude), DescriptionText(location), ALTITUDE_ARG + " ", DESCRIPTION_ARG);
  }

  /** Where a text ending in `x` meets a text starting with `y`, the joined
      text reads `x + y`. */
  lemma {:induction false} Seam(a: string, b: string, x: string, y: string)
    requires Strings.EndsWith(a, x) && Strings.StartsWith(b, y)
    ensures (a + b)[|a| - |x|..|a| + |y|] == x + y
  {
    var lhs, rhs := (a + b)[|a| - |x|..|a| + |y|], x + y;
    assert |lhs| == |rhs|;
    forall k | 0 <= k < |lhs|
      ensures lhs[k] == rhs[k]
    {
      if k < |x| {
        assert lhs[k] == a[|a| - |x| + k] == a[|a| - |x|..][k];
      } else {
        assert lhs[k] == b[k - |x|] == b[..|y|][k - |x|];
      }
    }
  }

  /** How the loop ended: every row tagged, the counts differing so nothing
      ran, or an exception at row `row` after the rows before it were tagged. */
  datatype Stop = Finished | CountMismatch | Crashed(row: nat, error: RowError)

  datatype Outcome = Outcome(commands: seq<Command>, stop: Stop)

  /** `check_match`: tagging goes ahead only with one data row per image. */
  function CountsMatch(images: seq<string>, rows: seq<Record>): (ok: bool)
    ensures ok <==> |images| == |rows|
  {
    |images| == |rows|
  }

  /** The loop over `zip(images, rows)`, stopping at the first row that
      raises. */
  function TagRows(images: seq<string>, rows: seq<Record>, camera: Camera, parse: string -> Option<real>): (o: Outcome)
    requires |images| == |rows|
    ensures o.stop.Finished? || o.stop.Crashed?
    ensures o.stop.Finished? ==> |o.commands| == |images|
    ensures o.stop.Crashed? ==> o.stop.row < |images| && |o.commands| == o.stop.row
    ensures o.stop.Crashed? ==>
      TagRow(images[o.stop.row], rows[o.stop.row], camera, parse) == Failure(o.stop.error)
    ensures forall i | 0 <= i < |o.commands| :: TagRow(images[i], rows[i], camera, parse) == Success(o.commands[i])
  {
    var (commands, failure) := MapUntilFailure(images, rows, (image, row) => TagRow(image, row, camera, parse));
    match failure
    case None => Outcome(commands, Finished)
    case Some((k, e)) => Outcome(commands, Crashed(k, e))
  }

  /** `f` applied pairwise until it first fails: the results before the
      failure, and where the failure happened and why. */
  function MapUntilFailure<A, B, C, E>(xs: seq<A>, ys: seq<B>, f: (A, B) -> Result<C, E>): (r: (seq<C>, Option<(nat, E)>))
    requires |xs| == |ys|
    ensures r.1.None? ==> |r.0| == |xs|
    ensures r.1.Some? ==> r.1.value.0 < |xs| && |r.0| == r.1.value.0 && f(xs[r.1.value.0], ys[r.1.value.0]) == Failure(r.1.value.1)
    ensures forall i | 0 <= i < |r.0| :: f(xs[i], ys[i]) == Success(r.0[i])
  {
    if xs == [] then ([], None)
    else
      match f(xs[0], ys[0])
      case Failure(e) => ([], Some((0, e)))
      case Success(c) =>
        var (cs, failure) := MapUntilFailure(xs[1..], ys[1..], f);
        PrependSucceeded(xs, ys, c, cs, f);
        ([c] + cs, match failure case None => None case Some((k, e)) => Some((k + 1, e)))
  }

  /** Pointwise success carries over from the tail to the whole when the head
      succeeds too. */
  lemma {:induction false} PrependSucceeded<A, B, C, E>(xs: seq<A>, ys: seq<B>, c: C, cs: seq<C>, f: (A, B) -> Result<C, E>)
    requires 0 < |xs| == |ys| && |cs| < |xs|
    requires f(xs[0], ys[0]) == Success(c)
    requires forall i | 0 <= i < |cs| :: f(xs[1..][i], ys[1..][i]) == Success(cs[i])
    ensures forall i | 0 <= i < |[c] + cs| :: f(xs[i], ys[i]) == Success(([c] + cs)[i])
  {
    forall i | 0 < i < |[c] + cs|
      ensures f(xs[i], ys[i]) == Success(([c] + cs)[i])
    {
      assert xs[1..][i - 1] == xs[i] && ys[1..][i - 1] == ys[i];
    }
  }

  /** The loop body of `main` once the inputs are read: a count mismatch
      returns before any image is touched; otherwise images and rows are
      tagged pairwise in order. */
  function Run(images: seq<string>, rows: seq<Record>, camera: Camera, parse: string -> Option<real>): (o: Outcome)
    ensures o.stop == CountMismatch <==> !CountsMatch(images, rows)
    ensures !CountsMatch(images, rows) ==> o.commands == []
    ensures o.stop.Finished? ==> |o.commands| == |images| == |rows|
    ensures forall i | 0 <= i < |o.commands| ::
      i < |images| && i < |rows| && TagRow(images[i], rows[i], camera, parse) == Success(o.commands[i])
    ensures o.stop.Crashed? ==>
      && o.stop.row < |rows| && |o.commands| == o.stop.row
      && TagRow(images[o.stop.row], rows[o.stop.row], camera, parse) == Failure(o.stop.error)
  {
    if !CountsMatch(images, rows) then Outcome([], CountMismatch)
    else TagRows(images, rows, camera, parse)
  }

  /** A row error stops the batch: no row after it is tagged, and every row
      before it was. */
  lemma {:induction false} CrashStopsBatch(images: seq<string>, rows: seq<Record>, camera: Camera, parse: string -> Option<real>, k: nat)
    requires CountsMatch(images, rows) && k < |rows|
    requires TagRow(images[k], rows[k], camera, parse).Failure?
    ensures Run(images, rows, camera, parse).stop.Crashed?
    ensures Run(images, rows, camera, parse).stop.row <= k
    ensures |Run(images, rows, camera, parse).commands| <= k
  {
  }

  /** All rows convert exactly when the batch finishes. */
  lemma {:induction false} FinishesIffAllRowsConvert(images: seq<string>, rows: seq<Record>, camera: Camera, parse: string -> Option<real>)
    requires CountsMatch(images, rows)
    ensures Run(images, rows, camera, parse).stop.Finished? <==>
      forall i | 0 <= i < |rows| :: TagRow(images[i], rows[i], camera, parse).Success?
  {
    var o := Run(images, rows, camera, parse);
    if !o.stop.Finished? {
      assert o.stop.Crashed?;
      assert !TagRow(images[o.stop.row], rows[o.stop.row], camera, parse).Success?;
    }
  }

  /** The whole program after argument parsing: the directory's names
      ordered into shots, the CSV records read with their header, and the
      two tagged pairwise. */
  function TagDirectory(names: seq<string>, records: seq<Record>, camera: Camera, parse: string -> Option<real>): (o: Outcome)
    ensures o.stop == CountMismatch <==> |Images.OrderImages(names)| != |CsvRows.ReadRows(records, true)|
    ensures forall i | 0 <= i < |o.commands| ::
      i < |Images.OrderImages(names)| && o.commands[i].image == Images.OrderImages(names)[i]
      && Images.IsJpg(o.commands[i].image)
  {
    var images := Images.OrderImages(names);
    var rows := CsvRows.ReadRows(records, true);
    var o := Run(images, rows, camera, parse);
    forall i | 0 <= i < |o.commands|
      ensures Images.IsJpg(images[i])
    {
      Images.OrderImagesKeepsJpgs(names, images[i]);
    }
    o
  }
}

=== FILE: csv_rows.dfy ===
/** `get_exif_data`: the records the CSV reader yields, with the header
    dropped when there is one and the empty records (blank lines) dropped.
    Reading the file and splitting it into fields is not modelled; the
    records arrive already split. */
module CsvRows {

  type Record = seq<string>

  /** The non-empty records, in file order. */
  function KeepRows(records: seq<Record>): (rows: seq<Record>)
    ensures |rows| <= |records|
    ensures forall i | 0 <= i < |rows| :: rows[i] != []
  {
    if records == [] then []
    else (if records[0] == [] then [] else [records[0]]) + KeepRows(records[1..])
  }

  /** `next(reader, None)` on a header file, then the loop keeping `if row`
      records. The header is whatever the first record is, blank or not. */
  function ReadRows(records: seq<Record>, hasHeader: bool): (rows: seq<Record>)
    ensures |rows| <= |records|
    ensures forall i | 0 <= i < |rows| :: rows[i] != []
  {
    if hasHeader && records != [] then KeepRows(records[1..]) else KeepRows(records)
  }

  /** Every non-empty record is kept as often as it occurs, and nothing else. */
  lemma {:induction false} KeepRowsCounts(records: seq<Record>, r: Record)
    ensures multiset(KeepRows(records))[r] == if r == [] then 0 else multiset(records)[r]
  {
    if records != [] {
      assert records == [records[0]] + records[1..];
      KeepRowsCounts(records[1..], r);
    }
  }

  /** The filter keeps file order: filtering two parts and joining them is
      filtering the whole. */
  lemma {:induction false} KeepRowsAppend(a: seq<Record>, b: seq<Record>)
    ensures KeepRows(a + b) == KeepRows(a) + KeepRows(b)
  {
    if a == [] {
      assert a + b == b;
    } else {
      assert (a + b)[1..] == a[1..] + b;
      KeepRowsAppend(a[1..], b);
    }
  }

  /** A file with no blank line loses nothing to the filter. */
  lemma {:induction false} KeepRowsNoBlanks(records: seq<Record>)
    requires forall i | 0 <= i < |records| :: records[i] != []
    ensures KeepRows(records) == records
  {
    if records != [] {
      KeepRowsNoBlanks(records[1..]);
    }
  }

  /** Filtering twice is filtering once. */
  lemma {:induction false} KeepRowsIdempotent(records: seq<Record>)
    ensures KeepRows(KeepRows(records)) == KeepRows(records)
  {
    KeepRowsNoBlanks(KeepRows(records));
  }

  /** The header, blank or not, is the only record that is lost without
      being blank: reading with a header is reading the rest without one. */
  lemma {:induction false} HeaderIsFirstRecord(header: Record, body: seq<Record>)
    ensures ReadRows([header] + body, true) == ReadRows(body, false)
    ensures ReadRows([header] + body, false) == (if header == [] then [] else [header]) + ReadRows(body, false)
  {
    assert ([header] + body)[1..] == body;
  }
}

=== FILE: dates.dfy ===
/** The date conversion of `main`:
      datetime.strptime(date, "%b %d, %Y at %H:%M").strftime("%Y:%m:%d %H:%M:%S")
    The spreadsheet writes shot dates as "Dec 13, 2023 at 13:36"; the image
    metadata wants "2023:12:13 13:36:00". Parsing follows the regular
    expression `strptime` builds from the format, then the calendar check of
    the `datetime` constructor. */
module Dates {

  import opened Wrappers
  import opened Text

  datatype DateTime = DateTime(year: nat, month: nat, day: nat, hour: nat, minute: nat)

  /** `NoMatch`: the text does not fit the format ("time data ... does not
      match format" or "unconverted data remains"). The other two are the
      `datetime` constructor's range checks on a text that did fit. */
  datatype DateError = NoMatch | YearOutOfRange | DayOutOfRange

  /** A value read from the front of a string, and what is left after it. */
  datatype Scan = Scan(value: nat, rest: string)

  predicate IsLeapYear(y: int) {
    y % 4 == 0 && (y % 100 != 0 || y % 400 == 0)
  }

  function DaysInMonth(y: int, m: int): nat
    requires 1 <= m <= 12
  {
    if m == 2 then (if IsLeapYear(y) then 29 else 28)
    else if m == 4 || m == 6 || m == 9 || m == 11 then 30
    else 31
  }

  /** A date and time `datetime` accepts (proleptic Gregorian, years 1-9999). */
  predicate Valid(d: DateTime) {
    && 1 <= d.year <= 9999
    && 1 <= d.month <= 12
    && 1 <= d.day <= DaysInMonth(d.year, d.month)
    && d.hour <= 23
    && d.minute <= 59
  }

  /** The fields as the pattern's digit groups can hold them: `%Y` is four
      digits, the others at most two. */
  predicate Representable(d: DateTime) {
    d.year < 10000 && 1 <= d.month <= 12 && d.day < 100 && d.hour < 100 && d.minute < 100
  }

  /** The ranges the pattern itself admits: `%d` is 1-31, `%H` 0-23, `%M` 0-59. */
  predicate InPatternRange(d: DateTime) {
    1 <= d.day <= 31 && d.hour <= 23 && d.minute <= 59
  }

  function MonthName(m: nat): string
    requires 1 <= m <= 12
  {
    match m
    case 1 => "Jan" case 2 => "Feb" case 3 => "Mar" case 4 => "Apr"
    case 5 => "May" case 6 => "Jun" case 7 => "Jul" case 8 => "Aug"
    case 9 => "Sep" case 10 => "Oct" case 11 => "Nov" case _ => "Dec"
  }

  /** `%b`: an English month abbreviation, in any letter case. */
  function MonthOf(t: string): (r: Option<nat>)
    requires |t| == 3
    ensures r.Some? ==> 1 <= r.value <= 12 && SameIgnoringCase(t, MonthName(r.value))
  {
    match (Lower(t[0]), Lower(t[1]), Lower(t[2]))
    case ('j', 'a', 'n') => Some(1)
    case ('f', 'e', 'b') => Some(2)
    case ('m', 'a', 'r') => Some(3)
    case ('a', 'p', 'r') => Some(4)
    case ('m', 'a', 'y') => Some(5)
    case ('j', 'u', 'n') => Some(6)
    case ('j', 'u', 'l') => Some(7)
    case ('a', 'u', 'g') => Some(8)
    case ('s', 'e', 'p') => Some(9)
    case ('o', 'c', 't') => Some(10)
    case ('n', 'o', 'v') => Some(11)
    case ('d', 'e', 'c') => Some(12)
    case _ => None
  }

  lemma {:induction false} MonthOfName(m: nat)
    requires 1 <= m <= 12
    ensures MonthOf(MonthName(m)) == Some(m)
  {
    var n := MonthName(m);
    assert |n| == 3;
    assert [Lower(n[0]), Lower(n[1]), Lower(n[2])]
        == match m
           case 1 => "jan" case 2 => "feb" case 3 => "mar" case 4 => "apr"
           case 5 => "may" case 6 => "jun" case 7 => "jul" case 8 => "aug"
           case 9 => "sep" case 10 => "oct" case 11 => "nov" case _ => "dec";
  }

  function ScanMonth(s: string): (r: Option<Scan>)
    ensures r.Some? ==> |s| >= 3 && r.value.rest == s[3..] && MonthOf(s[..3]) == Some(r.value.value)
  {
    if |s| < 3 then None
    else match MonthOf(s[..3])
      case None => None
      case Some(m) => Some(Scan(m, s[3..]))
  }

  /** A run of between `minLen` and `maxLen` digits. */
  function ScanDigits(s: string, minLen: nat, maxLen: nat): (r: Option<Scan>)
    ensures r.Some? ==> r.value.value < Pow10(maxLen)
    ensures r.Some? ==> |r.value.rest| <= |s|
    ensures r.Some? ==>
      var n := |s| - |r.value.rest|;
      && minLen <= n <= maxLen && AllDigits(s[..n])
      && r.value.value == Value(s[..n]) && r.value.rest == s[n..]
  {
    var n := SpanDigits(s);
    if minLen <= n <= maxLen then
      ValueBelowPow10(s[..n]);
      Pow10Monotone(n, maxLen);
      Some(Scan(Value(s[..n]), s[n..]))
    else None
  }

  /** `\s+`, the pattern's rendering of a space in the format. */
  function SkipSpaces(s: string): (r: Option<string>)
    ensures r.None? <==> s == [] || !IsSpace(s[0])
    ensures r.Some? ==> |r.value| < |s| && IsBlank(s[..|s| - |r.value|]) && r.value == s[|s| - |r.value|..]
  {
    var n := SpanSpaces(s);
    if n >= 1 then Some(s[n..]) else None
  }

  /** A literal part of the format, matched ignoring letter case. */
  function SkipLiteral(s: string, lit: string): (r: Option<string>)
    ensures r.Some? ==> |lit| <= |s| && SameIgnoringCase(s[..|lit|], lit) && r.value == s[|lit|..]
  {
    if |lit| <= |s| && SameIgnoringCase(s[..|lit|], lit) then Some(s[|lit|..]) else None
  }

  /** Two numbers read from the front of a string, and what is left after them. */
  datatype Pair = Pair(first: nat, second: nat, rest: string)

  /** "%b %d," */
  function MatchMonthDay(s: string): (r: Option<Pair>)
    ensures r.Some? ==> 1 <= r.value.first <= 12 && r.value.second < 100
  {
    var month :- ScanMonth(s);
    var r1 :- SkipSpaces(month.rest);
    var day :- ScanDigits(r1, 1, 2);
    var r2 :- SkipLiteral(day.rest, ",");
    Some(Pair(month.value, day.value, r2))
  }

  /** " %Y at " */
  function MatchYear(s: string): (r: Option<Scan>)
    ensures r.Some? ==> r.value.value < 10000
  {
    var r3 :- SkipSpaces(s);
    var year :- ScanDigits(r3, 4, 4);
    var r4 :- SkipSpaces(year.rest);
    var r5 :- SkipLiteral(r4, "at");
    var r6 :- SkipSpaces(r5);
    Some(Scan(year.value, r6))
  }

  /** "%H:%M" */
  function MatchTime(s: string): (r: Option<Pair>)
    ensures r.Some? ==> r.value.first < 100 && r.value.second < 100
  {
    var hour :- ScanDigits(s, 1, 2);
    var r7 :- SkipLiteral(hour.rest, ":");
    var minute :- ScanDigits(r7, 1, 2);
    Some(Pair(hour.value, minute.value, minute.rest))
  }

  /** The pattern match of `strptime` for "%b %d, %Y at %H:%M": the whole
      text must be consumed. */
  function MatchCsvDate(s: string): (r: Option<DateTime>)
    ensures r.Some? ==> Representable(r.value) && InPatternRange(r.value)
  {
    var md :- MatchMonthDay(s);
    var y :- MatchYear(md.rest);
    var hm :- MatchTime(y.rest);
    var d := DateTime(y.value, md.first, md.second, hm.first, hm.second);
    if hm.rest == [] && InPatternRange(d) then Some(d) else None
  }

  /** A text laid out the way the pattern for "%b %d, %Y at %H:%M" reads
      it: the pieces between the fixed "," and ":". */
  datatype Spelling = Spelling(
    month: string, gap1: string, day: string, gap2: string, year: string,
    gap3: string, at: string, gap4: string, hour: string, minute: string)

  function SpellingText(sp: Spelling): string {
    sp.month + (sp.gap1 + (sp.day + ("," + (sp.gap2 + (sp.year
      + (sp.gap3 + (sp.at + (sp.gap4 + (sp.hour + (":" + sp.minute))))))))))
  }

  /** The spellings the pattern admits: a month abbreviation in any letter
      case, a run of whitespace for each space of the format, "at" in any
      case, four year digits and one or two digits for the other fields. */
  predicate Admissible(sp: Spelling) {
    && |sp.month| == 3 && MonthOf(sp.month).Some?
    && IsBlank(sp.gap1) && IsBlank(sp.gap2) && IsBlank(sp.gap3) && IsBlank(sp.gap4)
    && SameIgnoringCase(sp.at, "at")
    && AllDigits(sp.year) && |sp.year| == 4
    && AllDigits(sp.day) && 1 <= |sp.day| <= 2
    && AllDigits(sp.hour) && 1 <= |sp.hour| <= 2
    && AllDigits(sp.minute) && 1 <= |sp.minute| <= 2
  }

  /** The fields an admissible spelling denotes. */
  function SpelledDate(sp: Spelling): DateTime
    requires Admissible(sp)
  {
    DateTime(Value(sp.year), MonthOf(sp.month).value, Value(sp.day), Value(sp.hour), Value(sp.minute))
  }

  /** `datetime.strptime(s, "%b %d, %Y at %H:%M")`: the fields the pattern
      read, when they name a real date. */
  function ParseCsvDate(s: string): (r: Result<DateTime, DateError>)
    ensures r.Success? ==> Valid(r.value) && MatchCsvDate(s) == Some(r.value)
    ensures r.Success? <==> MatchCsvDate(s).Some? && Valid(MatchCsvDate(s).value)
    ensures r == Failure(NoMatch) <==> MatchCsvDate(s).None?
    ensures r == Failure(YearOutOfRange) <==> MatchCsvDate(s).Some? && MatchCsvDate(s).value.year == 0
  {
    match MatchCsvDate(s)
    case None => Failure(NoMatch)
    case Some(d) =>
      if d.year == 0 then Failure(YearOutOfRange)
      else if d.day > DaysInMonth(d.year, d.month) then Failure(DayOutOfRange)
      else Success(d)
  }

  /** `%d` as the spreadsheet writes it: no leading zero. */
  function DayText(day: nat): string
    requires day < 100
  {
    if day < 10 then Pad(day, 1) else Pad(day, 2)
  }

  /** The spreadsheet's rendering of a date, e.g. "Dec 13, 2023 at 13:36". */
  function FormatCsvDate(d: DateTime): (r: string)
    requires Representable(d)
    ensures MatchCsvDate(r) == if InPatternRange(d) then Some(d) else None
  {
    MatchSpelling(CsvSpelling(d));
    SpellingText(CsvSpelling(d))
  }

  /** The pieces of the spreadsheet's rendering: single spaces, lower-case
      "at", the day without a leading zero and the time with them. */
  function CsvSpelling(d: DateTime): (sp: Spelling)
    requires Representable(d)
    ensures Admissible(sp) && SpelledDate(sp) == d
  {
    CsvPieces(d);
    Spelling(MonthName(d.month), " ", DayText(d.day), " ", Pad(d.year, 4), " ", "at", " ",
             Pad(d.hour, 2), Pad(d.minute, 2))
  }

  /** The facts about each piece of the spreadsheet's rendering that make it
      an admissible spelling of the date. */
  lemma {:induction false} CsvPieces(d: DateTime)
    requires Representable(d)
    ensures |MonthName(d.month)| == 3 && MonthOf(MonthName(d.month)) == Some(d.month)
    ensures IsBlank(" ") && SameIgnoringCase("at", "at")
    ensures AllDigits(DayText(d.day)) && 1 <= |DayText(d.day)| <= 2 && Value(DayText(d.day)) == d.day
    ensures Value(Pad(d.year, 4)) == d.year
    ensures Value(Pad(d.hour, 2)) == d.hour && Value(Pad(d.minute, 2)) == d.minute
  {
    MonthOfName(d.month);
    DayTextValue(d.day);
    ValueOfPad(d.year, 4);
    ValueOfPad(d.hour, 2);
    ValueOfPad(d.minute, 2);
  }

  lemma {:induction false} DayTextValue(day: nat)
    requires day < 100
    ensures 1 <= |DayText(day)| <= 2 && Value(DayText(day)) == day
  {
    if day < 10 {
      ValueOfPad(day, 1);
    } else {
      ValueOfPad(day, 2);
    }
  }

  /** `strftime("%Y:%m:%d %H:%M:%S")`; the seconds are always zero. */
  function FormatExif(d: DateTime): (r: string)
    requires Representable(d)
    ensures |r| == 19 && r[16..] == ":00"
    ensures ParseExif(r) == Some(d)
  {
    ExifPieces(d);
    ExifDateText(d) + ExifTimeText(d)
  }

  /** The two halves of the metadata rendering read back as the date, with
      zero seconds. */
  lemma {:induction false} ExifPieces(d: DateTime)
    requires Representable(d)
    ensures var r := ExifDateText(d) + ExifTimeText(d);
      |r| == 19 && r[16..] == ":00" && ParseExif(r) == Some(d)
  {
    var r := ExifDateText(d) + ExifTimeText(d);
    assert r[..11] == ExifDateText(d) && r[11..] == ExifTimeText(d);
    ExifDateOf(d);
    ExifTimeOf(d);
    assert Pad(0, 2) == "00";
    assert r[16..] == ExifTimeText(d)[5..];
  }

  /** "%Y:%m:%d " */
  function ExifDateText(d: DateTime): (t: string)
    requires Representable(d)
    ensures |t| == 11
  {
    Pad(d.year, 4) + (":" + (Pad(d.month, 2) + (":" + (Pad(d.day, 2) + " "))))
  }

  /** "%H:%M:%S" */
  function ExifTimeText(d: DateTime): (t: string)
    requires Representable(d)
    ensures |t| == 8
  {
    Pad(d.hour, 2) + (":" + (Pad(d.minute, 2) + (":" + Pad(0, 2))))
  }

  /** "%Y:%m:%d " in the metadata format. */
  function MatchExifDate(t: string): Option<DateTime> {
    var year :- ScanDigits(t, 4, 4);
    var r1 :- SkipLiteral(year.rest, ":");
    var month :- ScanDigits(r1, 2, 2);
    var r2 :- SkipLiteral(month.rest, ":");
    var day :- ScanDigits(r2, 2, 2);
    var r3 :- SkipLiteral(day.rest, " ");
    Some(DateTime(year.value, month.value, day.value, 0, 0))
  }

  /** "%H:%M:%S" with zero seconds, ending the text. */
  function MatchExifTime(t: string): Option<Pair> {
    var hour :- ScanDigits(t, 2, 2);
    var r4 :- SkipLiteral(hour.rest, ":");
    var minute :- ScanDigits(r4, 2, 2);
    var r5 :- SkipLiteral(minute.rest, ":");
    var second :- ScanDigits(r5, 2, 2);
    if second.rest == [] && second.value == 0 then Some(Pair(hour.value, minute.value, [])) else None
  }

  /** Reads a timestamp in the image metadata format back (the inverse of
      `FormatExif`); only a zero seconds field is accepted. */
  function ParseExif(t: string): Option<DateTime> {
    if |t| < 11 then None
    else
      var date :- MatchExifDate(t[..11]);
      var time :- MatchExifTime(t[11..]);
      Some(DateTime(date.year, date.month, date.day, time.first, time.second))
  }

  /** The conversion at the heart of `main`: the CSV date re-rendered in the
      metadata format, or the error that `strptime` raises. */
  function ReformatDate(s: string): (r: Result<string, DateError>)
    ensures r.Success? <==> ParseCsvDate(s).Success?
    ensures r.Failure? ==> r.error == ParseCsvDate(s).error
    ensures r.Success? ==> MatchCsvDate(s).Some? && r.value == FormatExif(MatchCsvDate(s).value)
  {
    match ParseCsvDate(s)
    case Failure(e) => Failure(e)
    case Success(d) => Success(FormatExif(d))
  }

  /** A converted date is 19 characters with zero seconds, and reads back as
      the date the spreadsheet text denotes. */
  lemma {:induction false} ReformatDateInverts(s: string)
    requires ReformatDate(s).Success?
    ensures |ReformatDate(s).value| == 19 && ReformatDate(s).value[16..] == ":00"
    ensures ParseExif(ReformatDate(s).value) == Some(ParseCsvDate(s).value)
    ensures ParseExif(ReformatDate(s).value) == MatchCsvDate(s)
  {
  }

  // ----- scanner facts -----

  lemma {:induction false} ScanDigitsOf(n: nat, width: nat, rest: string, minLen: nat, maxLen: nat)
    requires minLen <= width <= maxLen
    requires n < Pow10(width)
    requires rest == [] || !IsDigit(rest[0])
    ensures ScanDigits(Pad(n, width) + rest, minLen, maxLen) == Some(Scan(n, rest))
  {
    var s := Pad(n, width) + rest;
    SpanDigitsOfDigits(Pad(n, width), rest);
    assert s[..width] == Pad(n, width);
    ValueOfPad(n, width);
  }

  lemma {:induction false} SkipLiteralOf(lit: string, rest: string)
    ensures SkipLiteral(lit + rest, lit) == Some(rest)
  {
    assert (lit + rest)[..|lit|] == lit;
  }

  // ----- the texts the pattern accepts -----

  /** `%b` accepts exactly the twelve abbreviations, in any letter case. */
  lemma {:induction false} MonthOfIgnoringCase(t: string, m: nat)
    requires |t| == 3 && 1 <= m <= 12
    ensures MonthOf(t) == Some(m) <==> SameIgnoringCase(t, MonthName(m))
  {
    var n := MonthName(m);
    if SameIgnoringCase(t, n) {
      MonthOfName(m);
      assert Lower(t[0]) == Lower(n[0]) && Lower(t[1]) == Lower(n[1]) && Lower(t[2]) == Lower(n[2]);
    }
  }

  lemma {:induction false} ScanMonthAnyCase(t: string, rest: string)
    requires |t| == 3 && MonthOf(t).Some?
    ensures ScanMonth(t + rest) == Some(Scan(MonthOf(t).value, rest))
  {
    assert (t + rest)[..3] == t;
    assert (t + rest)[3..] == rest;
  }

  lemma {:induction false} ScanDigitRun(ds: string, rest: string, minLen: nat, maxLen: nat)
    requires AllDigits(ds) && minLen <= |ds| <= maxLen
    requires rest == [] || !IsDigit(rest[0])
    ensures ScanDigits(ds + rest, minLen, maxLen) == Some(Scan(Value(ds), rest))
  {
    SpanDigitsOfDigits(ds, rest);
    assert (ds + rest)[..|ds|] == ds;
    assert (ds + rest)[|ds|..] == rest;
  }

  lemma {:induction false} SkipBlank(w: string, rest: string)
    requires IsBlank(w)
    requires rest == [] || !IsSpace(rest[0])
    ensures SkipSpaces(w + rest) == Some(rest)
  {
    SpanSpacesOfBlank(w, rest);
    assert (w + rest)[|w|..] == rest;
  }

  lemma {:induction false} SkipLiteralAnyCase(t: string, lit: string, rest: string)
    requires SameIgnoringCase(t, lit)
    ensures SkipLiteral(t + rest, lit) == Some(rest)
  {
    assert (t + rest)[..|lit|] == t;
    assert (t + rest)[|lit|..] == rest;
  }

  lemma {:induction false} MonthDaySpelled(mt: string, w: string, ds: string, rest: string)
    requires |mt| == 3 && MonthOf(mt).Some? && IsBlank(w) && AllDigits(ds) && 1 <= |ds| <= 2
    ensures MatchMonthDay(mt + (w + (ds + ("," + rest)))) == Some(Pair(MonthOf(mt).value, Value(ds), rest))
  {
    var t2 := "," + rest;
    var t1 := ds + t2;
    ScanMonthAnyCase(mt, w + t1);
    assert t1[0] == ds[0];
    SkipBlank(w, t1);
    ScanDigitRun(ds, t2, 1, 2);
    SkipLiteralAnyCase(",", ",", rest);
  }

  lemma {:induction false} YearSpelled(w1: string, ys: string, w2: string, at: string, w3: string, rest: string)
    requires IsBlank(w1) && AllDigits(ys) && |ys| == 4 && IsBlank(w2) && SameIgnoringCase(at, "at") && IsBlank(w3)
    requires rest == [] || !IsSpace(rest[0])
    ensures MatchYear(w1 + (ys + (w2 + (at + (w3 + rest))))) == Some(Scan(Value(ys), rest))
  {
    var t5 := w3 + rest;
    var t4 := at + t5;
    var t3 := w2 + t4;
    var t2 := ys + t3;
    assert t2[0] == ys[0];
    SkipBlank(w1, t2);
    assert t3[0] == w2[0];
    ScanDigitRun(ys, t3, 4, 4);
    assert t4[0] == at[0] && Lower(at[0]) == 'a';
    SkipBlank(w2, t4);
    SkipLiteralAnyCase(at, "at", t5);
    SkipBlank(w3, rest);
  }

  lemma {:induction false} TimeSpelled(hs: string, ms: string)
    requires AllDigits(hs) && 1 <= |hs| <= 2 && AllDigits(ms) && 1 <= |ms| <= 2
    ensures MatchTime(hs + (":" + ms)) == Some(Pair(Value(hs), Value(ms), []))
  {
    ScanDigitRun(hs, ":" + ms, 1, 2);
    SkipLiteralAnyCase(":", ":", ms);
    ScanDigitRun(ms, [], 1, 2);
    assert ms + [] == ms;
  }

  /** The pattern reads every admissible spelling as the fields it spells,
      and fails on it exactly when a field is outside the pattern's ranges. */
  lemma {:induction false} MatchSpelling(sp: Spelling)
    requires Admissible(sp)
    ensures MatchCsvDate(SpellingText(sp)) ==
      if InPatternRange(SpelledDate(sp)) then Some(SpelledDate(sp)) else None
  {
    var time := sp.hour + (":" + sp.minute);
    var afterDay := sp.gap2 + (sp.year + (sp.gap3 + (sp.at + (sp.gap4 + time))));
    MonthDaySpelled(sp.month, sp.gap1, sp.day, afterDay);
    assert time[0] == sp.hour[0];
    YearSpelled(sp.gap2, sp.year, sp.gap3, sp.at, sp.gap4, time);
    TimeSpelled(sp.hour, sp.minute);
  }

  // The scanners split what they consume off the front of the text.

  lemma {:induction false} SkipSpacesSplit(s: string) returns (w: string)
    requires SkipSpaces(s).Some?
    ensures IsBlank(w) && s == w + SkipSpaces(s).value
  {
    var r := SkipSpaces(s).value;
    w := s[..|s| - |r|];
    assert s == w + s[|s| - |r|..];
  }

  lemma {:induction false} ScanDigitsSplit(s: string, minLen: nat, maxLen: nat) returns (ds: string)
    requires ScanDigits(s, minLen, maxLen).Some?
    ensures AllDigits(ds) && minLen <= |ds| <= maxLen && Value(ds) == ScanDigits(s, minLen, maxLen).value.value
    ensures s == ds + ScanDigits(s, minLen, maxLen).value.rest
  {
    var sc := ScanDigits(s, minLen, maxLen).value;
    ds := s[..|s| - |sc.rest|];
    assert s == ds + s[|s| - |sc.rest|..];
  }

  lemma {:induction false} SkipLiteralSplit(s: string, lit: string) returns (t: string)
    requires SkipLiteral(s, lit).Some?
    ensures SameIgnoringCase(t, lit) && s == t + SkipLiteral(s, lit).value
  {
    t := s[..|lit|];
    assert s == t + s[|lit|..];
  }

  /** A punctuation character matches only itself. */
  lemma {:induction false} PunctuationMatchesItself(t: string, c: char)
    requires c == ',' || c == ':'
    requires SameIgnoringCase(t, [c])
    ensures t == [c]
  {
    assert Lower(t[0]) == Lower([c][0]);
  }

  lemma {:induction false} MonthDayPieces(s: string) returns (mt: string, w: string, ds: string)
    requires MatchMonthDay(s).Some?
    ensures |mt| == 3 && MonthOf(mt) == Some(MatchMonthDay(s).value.first)
    ensures IsBlank(w) && AllDigits(ds) && 1 <= |ds| <= 2 && Value(ds) == MatchMonthDay(s).value.second
    ensures s == mt + (w + (ds + ("," + MatchMonthDay(s).value.rest)))
  {
    var month := ScanMonth(s).value;
    mt := s[..3];
    assert s == mt + month.rest;
    w := SkipSpacesSplit(month.rest);
    var r1 := SkipSpaces(month.rest).value;
    ds := ScanDigitsSplit(r1, 1, 2);
    var day := ScanDigits(r1, 1, 2).value;
    var comma := SkipLiteralSplit(day.rest, ",");
    PunctuationMatchesItself(comma, ',');
  }

  lemma {:induction false} YearPieces(s: string) returns (w1: string, ys: string, w2: string, at: string, w3: string)
    requires MatchYear(s).Some?
    ensures IsBlank(w1) && AllDigits(ys) && |ys| == 4 && Value(ys) == MatchYear(s).value.value
    ensures IsBlank(w2) && SameIgnoringCase(at, "at") && IsBlank(w3)
    ensures s == w1 + (ys + (w2 + (at + (w3 + MatchYear(s).value.rest))))
  {
    w1 := SkipSpacesSplit(s);
    var r3 := SkipSpaces(s).value;
    ys := ScanDigitsSplit(r3, 4, 4);
    var year := ScanDigits(r3, 4, 4).value;
    w2 := SkipSpacesSplit(year.rest);
    var r4 := SkipSpaces(year.rest).value;
    at := SkipLiteralSplit(r4, "at");
    var r5 := SkipLiteral(r4, "at").value;
    w3 := SkipSpacesSplit(r5);
  }

  lemma {:induction false} TimePieces(s: string) returns (hs: string, ms: string)
    requires MatchTime(s).Some?
    ensures AllDigits(hs) && 1 <= |hs| <= 2 && Value(hs) == MatchTime(s).value.first
    ensures AllDigits(ms) && 1 <= |ms| <= 2 && Value(ms) == MatchTime(s).value.second
    ensures s == hs + (":" + (ms + MatchTime(s).value.rest))
  {
    hs := ScanDigitsSplit(s, 1, 2);
    var hour := ScanDigits(s, 1, 2).value;
    var colon := SkipLiteralSplit(hour.rest, ":");
    PunctuationMatchesItself(colon, ':');
    var r7 := SkipLiteral(hour.rest, ":").value;
    ms := ScanDigitsSplit(r7, 1, 2);
  }

  /** Every text the pattern accepts is an admissible spelling of the fields
      it is read as. */
  lemma {:induction false} MatchedSpelling(s: string)
    requires MatchCsvDate(s).Some?
    ensures exists sp | Admissible(sp) :: SpellingText(sp) == s && SpelledDate(sp) == MatchCsvDate(s).value
  {
    var md := MatchMonthDay(s).value;
    var mt, w1, ds := MonthDayPieces(s);
    var y := MatchYear(md.rest).value;
    var w2, ys, w3, at, w4 := YearPieces(md.rest);
    var hm := MatchTime(y.rest).value;
    var hs, ms := TimePieces(y.rest);
    assert ms + hm.rest == ms;
    var sp := Spelling(mt, w1, ds, w2, ys, w3, at, w4, hs, ms);
    assert SpellingText(sp) == s;
    assert SpelledDate(sp) == MatchCsvDate(s).value;
  }

  /** What the pattern of `strptime` accepts, in both directions: a text is
      read as `d` exactly when it is an admissible spelling of `d` and `d`'s
      fields are in the pattern's ranges. */
  lemma {:induction false} MatchCsvDateCharacterized(s: string, d: DateTime)
    ensures MatchCsvDate(s) == Some(d) <==>
      InPatternRange(d) && exists sp | Admissible(sp) :: SpellingText(sp) == s && SpelledDate(sp) == d
  {
    if MatchCsvDate(s) == Some(d) {
      MatchedSpelling(s);
    }
    if InPatternRange(d) && exists sp | Admissible(sp) :: SpellingText(sp) == s && SpelledDate(sp) == d {
      var sp :| Admissible(sp) && SpellingText(sp) == s && SpelledDate(sp) == d;
      MatchSpelling(sp);
    }
  }

  // ----- round trips -----

  /** Every valid date survives the trip through the spreadsheet rendering. */
  lemma {:induction false} CsvRoundTrip(d: DateTime)
    requires Valid(d)
    ensures ParseCsvDate(FormatCsvDate(d)) == Success(d)
  {
    assert MatchCsvDate(FormatCsvDate(d)) == Some(d);
  }

  /** The outcome of `strptime` on the spreadsheet rendering of any
      representable fields: which error, if any, it raises. */
  lemma {:induction false} ParseFormatted(d: DateTime)
    requires Representable(d)
    ensures ParseCsvDate(FormatCsvDate(d)) ==
      if !InPatternRange(d) then Failure(NoMatch)
      else if d.year == 0 then Failure(YearOutOfRange)
      else if d.day > DaysInMonth(d.year, d.month) then Failure(DayOutOfRange)
      else Success(d)
  {
    assert MatchCsvDate(FormatCsvDate(d)) == if InPatternRange(d) then Some(d) else None;
  }

  lemma {:induction false} ExifDateOf(d: DateTime)
    requires Representable(d)
    ensures MatchExifDate(ExifDateText(d)) == Some(DateTime(d.year, d.month, d.day, 0, 0))
  {
    var t4 := Pad(d.day, 2) + " ";
    var t3 := ":" + t4;
    var t2 := Pad(d.month, 2) + t3;
    var t1 := ":" + t2;
    ScanDigitsOf(d.year, 4, t1, 4, 4);
    SkipLiteralOf(":", t2);
    ScanDigitsOf(d.month, 2, t3, 2, 2);
    SkipLiteralOf(":", t4);
    ScanDigitsOf(d.day, 2, " ", 2, 2);
    SkipLiteralOf(" ", []);
    assert " " + [] == " ";
  }

  lemma {:induction false} ExifTimeOf(d: DateTime)
    requires Representable(d)
    ensures MatchExifTime(ExifTimeText(d)) == Some(Pair(d.hour, d.minute, []))
  {
    var t4 := ":" + Pad(0, 2);
    var t3 := Pad(d.minute, 2) + t4;
    var t2 := ":" + t3;
    ScanDigitsOf(d.hour, 2, t2, 2, 2);
    SkipLiteralOf(":", t3);
    ScanDigitsOf(d.minute, 2, t4, 2, 2);
    SkipLiteralOf(":", Pad(0, 2));
    ScanDigitsOf(0, 2, [], 2, 2);
    assert Pad(0, 2) + [] == Pad(0, 2);
  }

  /** The conversion maps the spreadsheet rendering of a valid date to the
      metadata rendering of the same date. */
  lemma {:induction false} ReformatFormatted(d: DateTime)
    requires Valid(d)
    ensures ReformatDate(FormatCsvDate(d)) == Success(FormatExif(d))
  {
    CsvRoundTrip(d);
  }

  // ----- the examples of the source comment and the calendar checks -----

  lemma {:induction false} Pad2023()
    ensures Pad(2023, 4) == "2023" && Pad(2024, 4) == "2024"
  {
    assert Pad(202, 3) == "202";
  }

  lemma {:induction false} PadExamples()
    ensures Pad(0, 2) == "00" && Pad(2, 2) == "02" && Pad(10, 2) == "10" && Pad(12, 2) == "12"
    ensures Pad(13, 2) == "13" && Pad(24, 2) == "24" && Pad(29, 2) == "29" && Pad(36, 2) == "36"
  {
  }

  lemma {:induction false} CsvRenderExample()
    ensures FormatCsvDate(DateTime(2023, 12, 13, 13, 36)) == "Dec 13, 2023 at 13:36"
  {
    Pad2023();
    PadExamples();
    assert DayText(13) == "13";
    assert MonthName(12) == "Dec";
    CsvRenderLiteral();
  }

  /** The pieces of the rendered example, joined. */
  lemma {:induction false} CsvRenderLiteral()
    ensures "Dec" + (" " + ("13" + ("," + (" " + ("2023" + (" " + ("at" + (" " + ("13" + (":" + "36"))))))))))
         == "Dec 13, 2023 at 13:36"
  {
  }

  lemma {:induction false} ExifDateExample()
    ensures ExifDateText(DateTime(2023, 12, 13, 13, 36)) == "2023:12:13 "
  {
    Pad2023();
    PadExamples();
  }

  lemma {:induction false} ExifTimeExample()
    ensures ExifTimeText(DateTime(2023, 12, 13, 13, 36)) == "13:36:00"
  {
    PadExamples();
  }

  /** The example of the source comment. */
  lemma {:induction false} ReformatExample()
    ensures ReformatDate("Dec 13, 2023 at 13:36") == Success("2023:12:13 13:36:00")
  {
    CsvRenderExample();
    ExifRenderExample();
    ReformatFormatted(DateTime(2023, 12, 13, 13, 36));
  }

  lemma {:induction false} ExifRenderExample()
    ensures FormatExif(DateTime(2023, 12, 13, 13, 36)) == "2023:12:13 13:36:00"
  {
    ExifDateExample();
    ExifTimeExample();
    assert "2023:12:13 " + "13:36:00" == "2023:12:13 13:36:00";
  }

  /** The pattern also reads a lower-case month, a double space, a tab, an
      upper-case "AT" and an hour without its leading zero. */
  lemma {:induction false} LooseSpellingExample()
    ensures MatchCsvDate("dec  13,\t2023 AT 9:05") == Some(DateTime(2023, 12, 13, 9, 5))
  {
    var sp := Spelling("dec", "  ", "13", "\t", "2023", " ", "AT", " ", "9", "05");
    assert Admissible(sp) by {
      assert SameIgnoringCase("dec", MonthName(12));
      MonthOfIgnoringCase("dec", 12);
      assert SameIgnoringCase("AT", "at");
    }
    assert SpelledDate(sp) == DateTime(2023, 12, 13, 9, 5) by {
      MonthOfIgnoringCase("dec", 12);
      LooseSpellingValues();
    }
    LooseSpellingText();
    MatchSpelling(sp);
  }

  /** The loose spelling converts like the spreadsheet's own rendering. */
  lemma {:induction false} LooseReformatExample()
    ensures ReformatDate("dec  13,\t2023 AT 9:05") == Success("2023:12:13 09:05:00")
  {
    LooseSpellingExample();
    LooseExifRender();
  }

  lemma {:induction false} LooseExifRender()
    ensures FormatExif(DateTime(2023, 12, 13, 9, 5)) == "2023:12:13 09:05:00"
  {
    Pad2023();
    PadExamples();
    assert Pad(9, 2) == "09" && Pad(5, 2) == "05";
    assert ExifDateText(DateTime(2023, 12, 13, 9, 5)) == "2023:12:13 ";
    assert ExifTimeText(DateTime(2023, 12, 13, 9, 5)) == "09:05:00";
    assert "2023:12:13 " + "09:05:00" == "2023:12:13 09:05:00";
  }

  lemma {:induction false} LooseSpellingValues()
    ensures Value("2023") == 2023 && Value("13") == 13 && Value("9") == 9 && Value("05") == 5
  {
    Pad2023();
    PadExamples();
    ValueOfPad(2023, 4);
    ValueOfPad(13, 2);
    ValueOfPad(5, 2);
    assert Pad(5, 2) == "05";
    ValueOfPad(9, 1);
    assert Pad(9, 1) == "9";
  }

  lemma {:induction false} LooseSpellingText()
    ensures SpellingText(Spelling("dec", "  ", "13", "\t", "2023", " ", "AT", " ", "9", "05")) == "dec  13,\t2023 AT 9:05"
  {
  }

  /** 29 February 2023 does not exist: its spreadsheet text raises. */
  lemma {:induction false} MissingLeapDayExample()
    ensures ParseCsvDate(FormatCsvDate(DateTime(2023, 2, 29, 10, 0))) == Failure(DayOutOfRange)
  {
    ParseFormatted(DateTime(2023, 2, 29, 10, 0));
  }

  /** 29 February 2024 exists: its spreadsheet text converts. */
  lemma {:induction false} LeapDayExample()
    ensures ParseCsvDate(FormatCsvDate(DateTime(2024, 2, 29, 10, 0))) == Success(DateTime(2024, 2, 29, 10, 0))
  {
    CsvRoundTrip(DateTime(2024, 2, 29, 10, 0));
  }

  /** Hour 24 and minute 60 do not fit `%H` and `%M`; year 0 fits `%Y` but
      not the calendar. */
  lemma {:induction false} OutOfRangeExamples()
    ensures ParseCsvDate(FormatCsvDate(DateTime(2023, 12, 13, 24, 0))) == Failure(NoMatch)
    ensures ParseCsvDate(FormatCsvDate(DateTime(2023, 12, 13, 10, 60))) == Failure(NoMatch)
    ensures ParseCsvDate(FormatCsvDate(DateTime(0, 12, 13, 10, 0))) == Failure(YearOutOfRange)
  {
    ParseFormatted(DateTime(2023, 12, 13, 24, 0));
    ParseFormatted(DateTime(2023, 12, 13, 10, 60));
    ParseFormatted(DateTime(0, 12, 13, 10, 0));
  }
}

=== FILE: exposure.dfy ===
/** `ss_to_float` and the aperture conversion of `main`. The spreadsheet
    writes a shutter speed as "1/Ks" (a fraction of a second) or `K"` (whole
    seconds), or "-" when there is none; an aperture as "f:N" or "N".
    Decimal parsing (`float()`) is a parameter: a partial function from text
    to a number, `None` where Python raises `ValueError`. Only the choice of
    substring and the error branches are modelled here. */
module Exposure {

  import opened Wrappers
  import opened Text

  /** Which text `ss_to_float` hands to `float()`, and what for. */
  datatype Selection =
    | Dash                      // "-": no exposure time
    | Denominator(text: string) // "1/Ks": the K of a reciprocal
    | Duration(text: string)    // `K"`: a number of seconds

  /** The selection as written in the source: the seconds branch takes
      `ss[:-2]`, which cuts the last digit of K along with the quote. */
  function SelectShutterAsWritten(ss: string): (r: Selection)
    ensures r.Dash? <==> ss == "-"
    ensures r.Denominator? <==> ss != "-" && EndsWith(ss, "s")
  {
    if ss == "-" then Dash
    else if EndsWith(ss, "s") then Denominator(Slice(ss, 2, -1))
    else Duration(Slice(ss, 0, -2))
  }

  /** The selection with the seconds branch reading `ss[:-1]`, which drops
      only the closing quote. */
  function SelectShutter(ss: string): (r: Selection)
    ensures r.Dash? <==> ss == "-"
    ensures r.Denominator? <==> ss != "-" && EndsWith(ss, "s")
  {
    if ss == "-" then Dash
    else if EndsWith(ss, "s") then Denominator(Slice(ss, 2, -1))
    else Duration(Slice(ss, 0, -1))
  }

  /** "1/Ks" selects K, whatever K is. */
  lemma {:induction false} ReciprocalSelected(k: string)
    ensures SelectShutter("1/" + k + "s") == Denominator(k)
    ensures SelectShutterAsWritten("1/" + k + "s") == Denominator(k)
  {
    var ss := "1/" + k + "s";
    assert ss[|ss| - 1..] == "s";
    assert ss[2..|ss| - 1] == k;
  }

  /** `K"` selects K. */
  lemma {:induction false} SecondsSelected(k: string)
    ensures SelectShutter(k + "\"") == Duration(k)
  {
    var ss := k + "\"";
    assert ss[..|ss| - 1] == k;
    assert ss != "-";
    assert ss[|ss| - 1] == '"';
  }

  /** As written, `K"` selects K without its last character: `15"` is read as
      one second and `2"` as nothing at all. */
  lemma {:induction false} SecondsAsWrittenLosesDigit(k: string)
    requires k != []
    ensures SelectShutterAsWritten(k + "\"") == Duration(k[..|k| - 1])
  {
    var ss := k + "\"";
    assert ss[..|ss| - 2] == k[..|k| - 1];
    assert ss != "-";
    assert ss[|ss| - 1] == '"';
  }

  lemma {:induction false} SecondsAsWrittenExample()
    ensures SelectShutterAsWritten("15\"") == Duration("1")
    ensures SelectShutter("15\"") == Duration("15")
  {
    SecondsAsWrittenLosesDigit("15");
    SecondsSelected("15");
    assert "15" + "\"" == "15\"";
  }

  /** `1 / float(...)` with a zero denominator raises `ZeroDivisionError`,
      which the caller's `except ValueError` does not catch. */
  datatype ShutterError = ZeroDenominator

  /** `float()` applied to the selected text, inside the caller's `try`:
      `None` is the empty string the caller falls back to (a "-", or a text
      `float()` rejects), `Some(v)` an exposure time in seconds. */
  function SecondsOf(sel: Selection, parse: string -> Option<real>): (r: Result<Option<real>, ShutterError>)
    ensures sel.Dash? ==> r == Success(None)
    ensures r.Failure? <==> sel.Denominator? && parse(sel.text) == Some(0.0)
    ensures r == Success(None) <==> sel.Dash? || parse(sel.text).None?
    ensures r.Success? && r.value.Some? ==>
      match sel
      case Dash => false
      case Denominator(t) => parse(t).Some? && r.value.value * parse(t).value == 1.0
      case Duration(t) => parse(t) == Some(r.value.value)
  {
    match sel
    case Dash => Success(None)
    case Denominator(t) =>
      (match parse(t)
       case None => Success(None)
       case Some(v) => if v == 0.0 then Failure(ZeroDenominator) else Success(Some(1.0 / v)))
    case Duration(t) => Success(parse(t))
  }

  /** `ss_to_float` as written, seconds branch included. */
  function ShutterSeconds(ss: string, parse: string -> Option<real>): (r: Result<Option<real>, ShutterError>)
    ensures ss == "-" ==> r == Success(None)
    ensures ss != "-" && !EndsWith(ss, "s") ==> r == Success(parse(Slice(ss, 0, -2)))
    ensures r.Failure? <==> ss != "-" && EndsWith(ss, "s") && parse(Slice(ss, 2, -1)) == Some(0.0)
    ensures ss != "-" && EndsWith(ss, "s") ==> (r == Success(None) <==> parse(Slice(ss, 2, -1)).None?)
    ensures ss != "-" && EndsWith(ss, "s") && r.Success? && r.value.Some? ==>
      parse(Slice(ss, 2, -1)).Some? && r.value.value * parse(Slice(ss, 2, -1)).value == 1.0
  {
    SecondsOf(SelectShutterAsWritten(ss), parse)
  }

  /** `ss_to_float` with the seconds branch reading `ss[:-1]`. */
  function ShutterSecondsCorrected(ss: string, parse: string -> Option<real>): (r: Result<Option<real>, ShutterError>)
    ensures ss == "-" ==> r == Success(None)
    ensures ss != "-" && !EndsWith(ss, "s") ==> r == Success(parse(Slice(ss, 0, -1)))
    ensures r.Failure? <==> ss != "-" && EndsWith(ss, "s") && parse(Slice(ss, 2, -1)) == Some(0.0)
    ensures ss != "-" && EndsWith(ss, "s") ==> (r == Success(None) <==> parse(Slice(ss, 2, -1)).None?)
    ensures ss != "-" && EndsWith(ss, "s") && r.Success? && r.value.Some? ==>
      parse(Slice(ss, 2, -1)).Some? && r.value.value * parse(Slice(ss, 2, -1)).value == 1.0
  {
    SecondsOf(SelectShutter(ss), parse)
  }

  /** The exposure time of "1/Ks" is the reciprocal of K, in both versions. */
  lemma {:induction false} ReciprocalSeconds(k: string, parse: string -> Option<real>)
    requires parse(k).Some? && parse(k).value != 0.0
    ensures ShutterSeconds("1/" + k + "s", parse) == Success(Some(1.0 / parse(k).value))
    ensures ShutterSecondsCorrected("1/" + k + "s", parse) == Success(Some(1.0 / parse(k).value))
  {
    ReciprocalSelected(k);
  }

  /** The reciprocal branch takes whatever follows the first two characters,
      whether or not they are "1/": "2s" hands `float()` the empty text and
      gets no exposure time, and "0.5s" hands it "5". */
  lemma {:induction false} ReciprocalBranchExamples(parse: string -> Option<real>)
    requires parse("") == None && parse("5") == Some(5.0)
    ensures ShutterSeconds("2s", parse) == Success(None)
    ensures ShutterSeconds("0.5s", parse) == Success(Some(1.0 / 5.0))
  {
    assert Slice("2s", 2, -1) == "";
    assert Slice("0.5s", 2, -1) == "5";
  }

  /** As written, the exposure time of `K"` is K without its last digit. */
  lemma {:induction false} WholeSecondsAsWritten(k: string, parse: string -> Option<real>)
    requires k != []
    ensures ShutterSeconds(k + "\"", parse) == Success(parse(k[..|k| - 1]))
  {
    SecondsAsWrittenLosesDigit(k);
  }

  /** Corrected, the exposure time of `K"` is K. */
  lemma {:induction false} WholeSeconds(k: string, parse: string -> Option<real>)
    ensures ShutterSecondsCorrected(k + "\"", parse) == Success(parse(k))
  {
    SecondsSelected(k);
  }

  /** A one-digit duration: as written `float('')` raises and the exposure
      time is dropped; corrected, it is the digit. */
  lemma {:induction false} SingleDigitSecondsExample(parse: string -> Option<real>)
    requires parse("") == None && parse("2") == Some(2.0)
    ensures ShutterSeconds("2\"", parse) == Success(None)
    ensures ShutterSecondsCorrected("2\"", parse) == Success(Some(2.0))
  {
    WholeSecondsAsWritten("2", parse);
    WholeSeconds("2", parse);
    assert "2" + "\"" == "2\"";
    assert "2"[..0] == "";
  }

  /** The aperture text with one leading "f:" removed. */
  function ApertureText(aperture: string): (r: string)
    ensures StartsWith(aperture, "f:") ==> aperture == "f:" + r
    ensures !StartsWith(aperture, "f:") ==> r == aperture
  {
    if StartsWith(aperture, "f:") then aperture[2..] else aperture
  }

  /** Both spreadsheet forms of an f-number give the same text. */
  lemma {:induction false} ApertureForms(n: string)
    requires !StartsWith(n, "f:")
    ensures ApertureText("f:" + n) == ApertureText(n) == n
  {
    assert ("f:" + n)[..2] == "f:";
  }

  /** Only one prefix is removed. */
  lemma {:induction false} ApertureStripsOnce()
    ensures ApertureText("f:f:2") == "f:2"
  {
    assert "f:f:2"[..2] == "f:";
  }

  /** The aperture after the caller's `try`: `None` where `float()` fails. */
  function ApertureValue(aperture: string, parse: string -> Option<real>): Option<real> {
    parse(ApertureText(aperture))
  }

  /** "f:N" and "N" convert to the same aperture, or both fail. */
  lemma {:induction false} ApertureValueForms(n: string, parse: string -> Option<real>)
    requires !StartsWith(n, "f:")
    ensures ApertureValue("f:" + n, parse) == ApertureValue(n, parse)
  {
    ApertureForms(n);
  }
}

=== FILE: grouping.dfy ===
/** `factor_continuous_indices`: the selected row positions, sorted, cut into
    maximal runs of consecutive integers. */
module Grouping {

  import Sorting

  function IntLe(a: int, b: int): bool {
    a <= b
  }

  lemma {:induction false} IntLeIsTotalPreorder()
    ensures Sorting.TotalPreorder(IntLe)
  {
  }

  function Last(s: seq<int>): int
    requires s != []
  {
    s[|s| - 1]
  }

  /** The groups joined back together, in order. */
  function Flatten(groups: seq<seq<int>>): seq<int> {
    if groups == [] then [] else Flatten(groups[..|groups| - 1]) + groups[|groups| - 1]
  }

  /** Each element is its predecessor plus one. */
  predicate Consecutive(run: seq<int>) {
    forall i | 0 < i < |run| :: run[i] == run[i - 1] + 1
  }

  /** No two neighbouring groups could be merged into one run. */
  predicate Maximal(groups: seq<seq<int>>)
    requires forall k | 0 <= k < |groups| :: groups[k] != []
  {
    forall k | 0 < k < |groups| :: groups[k][0] != Last(groups[k - 1]) + 1
  }

  /** `groups` cuts `s` into non-empty, consecutive, maximal runs. */
  predicate IsRunDecomposition(groups: seq<seq<int>>, s: seq<int>) {
    && Flatten(groups) == s
    && (forall k | 0 <= k < |groups| :: groups[k] != [] && Consecutive(groups[k]))
    && Maximal(groups)
  }

  /** The number of positions where a run ends: `s[i] != s[i-1] + 1`. */
  function Breaks(s: seq<int>): nat {
    if |s| < 2 then 0
    else Breaks(s[..|s| - 1]) + (if s[|s| - 1] != s[|s| - 2] + 1 then 1 else 0)
  }

  lemma {:induction false} LastOfFlatten(groups: seq<seq<int>>)
    requires groups != [] && groups[|groups| - 1] != []
    ensures Flatten(groups) != [] && Last(Flatten(groups)) == Last(groups[|groups| - 1])
  {
  }

  /** Appending `x` one above the last element extends the last run. */
  lemma {:induction false} ExtendRun(g: seq<seq<int>>, init: seq<int>, x: int)
    requires IsRunDecomposition(g, init)
    requires init != [] && x == Last(init) + 1
    ensures IsRunDecomposition(g[..|g| - 1] + [g[|g| - 1] + [x]], init + [x])
  {
    LastOfFlatten(g);
    ExtendedFlattens(g, x);
    ExtendedRunsAreConsecutive(g, x);
    ExtendedIsMaximal(g, x);
  }

  lemma {:induction false} ExtendedFlattens(g: seq<seq<int>>, x: int)
    requires g != []
    ensures Flatten(g[..|g| - 1] + [g[|g| - 1] + [x]]) == Flatten(g) + [x]
  {
    var k := |g| - 1;
    var g' := g[..k] + [g[k] + [x]];
    assert g'[..k] == g[..k];
    assert Flatten(g') == Flatten(g[..k]) + (g[k] + [x]);
  }

  lemma {:induction false} ExtendedRunsAreConsecutive(g: seq<seq<int>>, x: int)
    requires forall j | 0 <= j < |g| :: g[j] != [] && Consecutive(g[j])
    requires g != [] && x == Last(g[|g| - 1]) + 1
    ensures var g' := g[..|g| - 1] + [g[|g| - 1] + [x]];
      forall j | 0 <= j < |g'| :: g'[j] != [] && Consecutive(g'[j])
  {
    var k := |g| - 1;
    var g' := g[..k] + [g[k] + [x]];
    assert forall j | 0 <= j < k :: g'[j] == g[j];
    assert Consecutive(g'[k]);
  }

  lemma {:induction false} ExtendedIsMaximal(g: seq<seq<int>>, x: int)
    requires forall j | 0 <= j < |g| :: g[j] != []
    requires g != [] && Maximal(g)
    ensures var g' := g[..|g| - 1] + [g[|g| - 1] + [x]];
      && (forall j | 0 <= j < |g'| :: g'[j] != [])
      && Maximal(g')
  {
    var k := |g| - 1;
    var g' := g[..k] + [g[k] + [x]];
    assert forall j | 0 <= j < k :: g'[j] == g[j];
    assert g'[k][0] == g[k][0];
  }

  /** Appending `x` anywhere else starts a new run. */
  lemma {:induction false} StartRun(g: seq<seq<int>>, init: seq<int>, x: int)
    requires IsRunDecomposition(g, init)
    requires init == [] || x != Last(init) + 1
    ensures IsRunDecomposition(g + [[x]], init + [x])
  {
    var g' := g + [[x]];
    assert Flatten(g') == init + [x] by {
      assert g'[..|g|] == g;
    }
    assert forall j | 0 <= j < |g'| :: g'[j] != [] && Consecutive(g'[j]) by {
      assert forall j | 0 <= j < |g| :: g'[j] == g[j];
    }
    assert Maximal(g') by {
      if init != [] {
        LastOfFlatten(g);
      }
      assert forall j | 0 <= j < |g| :: g'[j] == g[j];
    }
  }

  /** One iteration of the source loop: `x` extends the last run when it is
      one above the previous element, and starts a new run otherwise. */
  function Append(groups: seq<seq<int>>, init: seq<int>, x: int): seq<seq<int>>
    requires init != [] ==> groups != []
  {
    if init != [] && x == Last(init) + 1 then groups[..|groups| - 1] + [groups[|groups| - 1] + [x]]
    else groups + [[x]]
  }

  lemma {:induction false} BreaksStep(init: seq<int>, x: int)
    ensures Breaks(init + [x]) == Breaks(init) + (if init != [] && x != Last(init) + 1 then 1 else 0)
  {
    var s := init + [x];
    assert s[..|s| - 1] == init;
  }

  lemma {:induction false} AppendKeepsRuns(groups: seq<seq<int>>, init: seq<int>, x: int)
    requires IsRunDecomposition(groups, init)
    requires |groups| == if init == [] then 0 else 1 + Breaks(init)
    ensures init != [] ==> groups != []
    ensures IsRunDecomposition(Append(groups, init, x), init + [x])
    ensures |Append(groups, init, x)| == 1 + Breaks(init + [x])
  {
    BreaksStep(init, x);
    if init != [] && x == Last(init) + 1 {
      ExtendRun(groups, init, x);
    } else {
      StartRun(groups, init, x);
    }
  }

  /** The runs of `s`, built element by element as the source's loop does. */
  function Runs(s: seq<int>): (groups: seq<seq<int>>)
    ensures IsRunDecomposition(groups, s)
    ensures |groups| == if s == [] then 0 else 1 + Breaks(s)
  {
    if s == [] then []
    else
      var init, x := s[..|s| - 1], s[|s| - 1];
      assert s == init + [x];
      var g := Runs(init);
      AppendKeepsRuns(g, init, x);
      Append(g, init, x)
  }

  /** One step of `Runs`, stated on `init + [x]`. */
  lemma {:induction false} RunsStep(init: seq<int>, x: int)
    ensures init != [] ==> Runs(init) != []
    ensures Runs(init + [x]) == Append(Runs(init), init, x)
  {
    var s := init + [x];
    assert s[..|s| - 1] == init;
  }

  /** Removing the last element from a last run of two or more. */
  lemma {:induction false} ShrinkLastRun(groups: seq<seq<int>>, s: seq<int>) returns (g: seq<seq<int>>)
    requires IsRunDecomposition(groups, s)
    requires groups != [] && |groups[|groups| - 1]| >= 2
    ensures |s| >= 2 && s[|s| - 1] == s[|s| - 2] + 1
    ensures IsRunDecomposition(g, s[..|s| - 1])
    ensures g != [] && g[..|g| - 1] == groups[..|groups| - 1]
    ensures groups == g[..|g| - 1] + [g[|g| - 1] + [s[|s| - 1]]]
  {
    var k := |groups| - 1;
    var last := groups[k];
    var shorter := last[..|last| - 1];
    g := groups[..k] + [shorter];
    ShrunkIsDecomposition(groups, s);
    LastStepOfFlatten(groups);
    LastOfFlatten(groups);
    ShrunkShape(groups);
  }

  /** Shortening the last group and putting its last element back restores
      the groups. */
  lemma {:induction false} ShrunkShape(groups: seq<seq<int>>)
    requires groups != [] && groups[|groups| - 1] != []
    ensures var k := |groups| - 1; var last := groups[k]; var g := groups[..k] + [last[..|last| - 1]];
      && g != [] && g[..|g| - 1] == groups[..k]
      && groups == g[..|g| - 1] + [g[|g| - 1] + [last[|last| - 1]]]
  {
    var k := |groups| - 1;
    var last := groups[k];
    var shorter := last[..|last| - 1];
    var g := groups[..k] + [shorter];
    assert g[..k] == groups[..k];
    assert last == shorter + [last[|last| - 1]];
    assert groups == groups[..k] + [last];
  }

  /** The last two elements of the flattening are the last two of the last
      group, when it has two. */
  lemma {:induction false} LastStepOfFlatten(groups: seq<seq<int>>)
    requires groups != [] && |groups[|groups| - 1]| >= 2
    requires Consecutive(groups[|groups| - 1])
    ensures var s := Flatten(groups); |s| >= 2 && s[|s| - 1] == s[|s| - 2] + 1
  {
    var k := |groups| - 1;
    var last := groups[k];
    var s := Flatten(groups);
    assert s == Flatten(groups[..k]) + last;
    assert s[|s| - 1] == last[|last| - 1] && s[|s| - 2] == last[|last| - 2];
  }

  lemma {:induction false} ShrunkIsDecomposition(groups: seq<seq<int>>, s: seq<int>)
    requires IsRunDecomposition(groups, s)
    requires groups != [] && |groups[|groups| - 1]| >= 2
    ensures s != []
    ensures var k := |groups| - 1;
      IsRunDecomposition(groups[..k] + [groups[k][..|groups[k]| - 1]], s[..|s| - 1])
  {
    var k := |groups| - 1;
    var g := groups[..k] + [groups[k][..|groups[k]| - 1]];
    ShrunkFlattens(groups);
    ShrunkRunsAreConsecutive(groups);
    ShrunkIsMaximal(groups);
  }

  lemma {:induction false} ShrunkFlattens(groups: seq<seq<int>>)
    requires groups != [] && groups[|groups| - 1] != []
    ensures var k := |groups| - 1;
      && Flatten(groups) != []
      && Flatten(groups[..k] + [groups[k][..|groups[k]| - 1]]) == Flatten(groups)[..|Flatten(groups)| - 1]
  {
    var k := |groups| - 1;
    var last := groups[k];
    var g := groups[..k] + [last[..|last| - 1]];
    assert g[..k] == groups[..k];
    assert Flatten(groups) == Flatten(groups[..k]) + last;
    assert Flatten(g) == Flatten(groups[..k]) + last[..|last| - 1];
  }

  lemma {:induction false} ShrunkRunsAreConsecutive(groups: seq<seq<int>>)
    requires forall j | 0 <= j < |groups| :: groups[j] != [] && Consecutive(groups[j])
    requires groups != [] && |groups[|groups| - 1]| >= 2
    ensures var k := |groups| - 1; var g := groups[..k] + [groups[k][..|groups[k]| - 1]];
      forall j | 0 <= j < |g| :: g[j] != [] && Consecutive(g[j])
  {
    var k := |groups| - 1;
    var g := groups[..k] + [groups[k][..|groups[k]| - 1]];
    assert forall j | 0 <= j < k :: g[j] == groups[j];
  }

  lemma {:induction false} ShrunkIsMaximal(groups: seq<seq<int>>)
    requires forall j | 0 <= j < |groups| :: groups[j] != []
    requires Maximal(groups)
    requires groups != [] && |groups[|groups| - 1]| >= 2
    ensures var k := |groups| - 1; var g := groups[..k] + [groups[k][..|groups[k]| - 1]];
      && (forall j | 0 <= j < |g| :: g[j] != [])
      && Maximal(g)
  {
    var k := |groups| - 1;
    var g := groups[..k] + [groups[k][..|groups[k]| - 1]];
    assert forall j | 0 <= j < k :: g[j] == groups[j];
    assert g[k][0] == groups[k][0];
  }

  /** Removing a last run that holds a single element. */
  lemma {:induction false} DropLastRun(groups: seq<seq<int>>, s: seq<int>)
    requires IsRunDecomposition(groups, s)
    requires groups != [] && |groups[|groups| - 1]| == 1
    ensures s != [] && IsRunDecomposition(groups[..|groups| - 1], s[..|s| - 1])
    ensures |s| >= 2 ==> s[|s| - 1] != s[|s| - 2] + 1
    ensures groups == groups[..|groups| - 1] + [[s[|s| - 1]]]
  {
    var k := |groups| - 1;
    var g := groups[..k];
    assert s == Flatten(g) + groups[k];
    assert Flatten(g) == s[..|s| - 1];
    assert forall j | 0 <= j < k :: g[j] == groups[j];
    if |s| >= 2 {
      LastOfFlatten(g);
    }
    assert groups[k] == [s[|s| - 1]];
    assert groups == g + [groups[k]];
  }

  /** The decomposition into maximal runs is unique: any grouping with the
      three properties is the one `Runs` builds. */
  lemma {:induction false} RunsAreUnique(groups: seq<seq<int>>, s: seq<int>)
    requires IsRunDecomposition(groups, s)
    ensures groups == Runs(s)
    decreases |s|
  {
    if groups == [] {
      assert s == [];
    } else {
      var k := |groups| - 1;
      var last := groups[k];
      var init, x := s[..|s| - 1], s[|s| - 1];
      if |last| >= 2 {
        var g := ShrinkLastRun(groups, s);
        RunsAreUnique(g, init);
        assert init != [] && x == Last(init) + 1;
        assert Runs(s) == Append(g, init, x);
      } else {
        DropLastRun(groups, s);
        RunsAreUnique(groups[..k], init);
        assert !(init != [] && x == Last(init) + 1);
        assert Runs(s) == Append(groups[..k], init, x);
      }
    }
  }

  /** Both directions: a grouping is the result of `Runs` exactly when it is a
      decomposition into maximal consecutive runs. */
  lemma {:induction false} RunsCharacterized(groups: seq<seq<int>>, s: seq<int>)
    ensures IsRunDecomposition(groups, s) <==> groups == Runs(s)
  {
    if IsRunDecomposition(groups, s) {
      RunsAreUnique(groups, s);
    }
  }

  /** What one pass of the source loop does to the groups built so far. */
  lemma {:induction false} LoopStep(s: seq<int>, i: nat, groups: seq<seq<int>>, current: seq<int>)
    requires 1 <= i < |s|
    requires groups + [current] == Runs(s[..i])
    ensures s[i] == s[i - 1] + 1 ==> groups + [current + [s[i]]] == Runs(s[..i + 1])
    ensures s[i] != s[i - 1] + 1 ==> groups + [current] + [[s[i]]] == Runs(s[..i + 1])
  {
    PrefixStep(s, i);
    RunsStep(s[..i], s[i]);
    AppendOnto(groups, current, s[..i], s[i]);
  }

  lemma {:induction false} PrefixStep(s: seq<int>, i: nat)
    requires 1 <= i < |s|
    ensures s[..i + 1] == s[..i] + [s[i]] && Last(s[..i]) == s[i - 1]
  {
  }

  /** `Append` on groups whose last run is `current`. */
  lemma {:induction false} AppendOnto(groups: seq<seq<int>>, current: seq<int>, init: seq<int>, x: int)
    requires init != []
    ensures x == Last(init) + 1 ==> Append(groups + [current], init, x) == groups + [current + [x]]
    ensures x != Last(init) + 1 ==> Append(groups + [current], init, x) == groups + [current] + [[x]]
  {
    var g := groups + [current];
    assert g[..|g| - 1] == groups;
  }

  /** Python's in-place `list.sort()` on integers. */
  function SortIndices(indices: seq<int>): (sorted: seq<int>)
    ensures multiset(sorted) == multiset(indices)
    ensures Sorting.SortedBy(sorted, IntLe)
  {
    IntLeIsTotalPreorder();
    Sorting.SortIsSorted(indices, IntLe);
    Sorting.Sort(indices, IntLe)
  }

  /** The source function. `sorted` is the caller's list after the in-place
      `indices.sort()`; an empty list is returned untouched. */
  method FactorContinuousIndices(indices: seq<int>) returns (sorted: seq<int>, groups: seq<seq<int>>)
    ensures multiset(sorted) == multiset(indices)
    ensures Sorting.SortedBy(sorted, IntLe)
    ensures indices == [] ==> groups == []
    ensures Flatten(groups) == sorted
    ensures forall k | 0 <= k < |groups| :: groups[k] != [] && Consecutive(groups[k])
    ensures Maximal(groups)
    ensures indices != [] ==> |groups| == 1 + Breaks(sorted)
    ensures groups == Runs(sorted)
  {
    if indices == [] {
      return indices, [];
    }
    sorted := SortIndices(indices);
    groups := [];
    var current := [sorted[0]];
    var i := 1;
    assert sorted[..1] == [sorted[0]];
    while i < |sorted|
      invariant 1 <= i <= |sorted|
      invariant groups + [current] == Runs(sorted[..i])
    {
      LoopStep(sorted, i, groups, current);
      if sorted[i] == sorted[i - 1] + 1 {
        current := current + [sorted[i]];
      } else {
        groups := groups + [current];
        current := [sorted[i]];
      }
      i := i + 1;
    }
    groups := groups + [current];
    assert sorted[..i] == sorted;
  }

  /** The head of a sorted sequence is at most any of its elements. */
  lemma {:induction false} SortedHeadIsLeast(s: seq<int>, x: int)
    requires Sorting.SortedBy(s, IntLe) && x in multiset(s)
    ensures s[0] <= x
  {
    var j :| 0 <= j < |s| && s[j] == x;
    assert j == 0 || IntLe(s[0], s[j]);
  }

  /** Integers have one ascending arrangement: two sorted sequences with the
      same elements are equal. */
  lemma {:induction false} SortedIsUnique(a: seq<int>, b: seq<int>)
    requires Sorting.SortedBy(a, IntLe) && Sorting.SortedBy(b, IntLe)
    requires multiset(a) == multiset(b)
    ensures a == b
    decreases |a|
  {
    assert |a| == |multiset(a)| == |multiset(b)| == |b|;
    if a != [] {
      SortedHeadIsLeast(a, b[0]);
      SortedHeadIsLeast(b, a[0]);
      TailMultiset(a);
      TailMultiset(b);
      Sorting.SortedTail(a, IntLe);
      Sorting.SortedTail(b, IntLe);
      SortedIsUnique(a[1..], b[1..]);
      assert a == [a[0]] + a[1..] && b == [b[0]] + b[1..];
    }
  }

  lemma {:induction false} TailMultiset(s: seq<int>)
    requires s != []
    ensures multiset(s[1..]) == multiset(s) - multiset{s[0]}
  {
    assert s == [s[0]] + s[1..];
  }

  /** Neighbours in order are enough for the whole sequence to be in order. */
  lemma {:induction false} AscendingIsSorted(s: seq<int>)
    requires forall i | 0 < i < |s| :: s[i - 1] <= s[i]
    ensures Sorting.SortedBy(s, IntLe)
    decreases |s|
  {
    if s != [] {
      AscendingIsSorted(s[..|s| - 1]);
      forall i, j | 0 <= i < j < |s|
        ensures IntLe(s[i], s[j])
      {
        if j < |s| - 1 {
          assert IntLe(s[..|s| - 1][i], s[..|s| - 1][j]);
        } else if i < j - 1 {
          assert IntLe(s[..|s| - 1][i], s[..|s| - 1][j - 1]);
        }
      }
    }
  }

  // ----- the two examples of the source -----

  /** `[1, 2, 3]`, in any order, is one run. */
  lemma {:induction false} OneRunExample(sorted: seq<int>)
    requires multiset(sorted) == multiset([1, 2, 3]) && Sorting.SortedBy(sorted, IntLe)
    ensures Runs(sorted) == [[1, 2, 3]]
  {
    AscendingIsSorted([1, 2, 3]);
    SortedIsUnique(sorted, [1, 2, 3]);
    OneRun();
  }

  lemma {:induction false} OneRun()
    ensures Runs([1, 2, 3]) == [[1, 2, 3]]
  {
    var g: seq<seq<int>> := [[1, 2, 3]];
    assert g[..0] == [];
    assert Flatten(g) == [1, 2, 3];
    assert Consecutive(g[0]);
    RunsAreUnique(g, [1, 2, 3]);
  }

  /** `[1, 4, 5, 7, 8, 9, 10]`, in any order, is three runs. */
  lemma {:induction false} ThreeRunsExample(sorted: seq<int>)
    requires multiset(sorted) == multiset([1, 4, 5, 7, 8, 9, 10]) && Sorting.SortedBy(sorted, IntLe)
    ensures Runs(sorted) == [[1], [4, 5], [7, 8, 9, 10]]
  {
    AscendingIsSorted([1, 4, 5, 7, 8, 9, 10]);
    SortedIsUnique(sorted, [1, 4, 5, 7, 8, 9, 10]);
    ThreeRuns();
  }

  lemma {:induction false} ThreeRuns()
    ensures Runs([1, 4, 5, 7, 8, 9, 10]) == [[1], [4, 5], [7, 8, 9, 10]]
  {
    var g: seq<seq<int>> := [[1], [4, 5], [7, 8, 9, 10]];
    assert Flatten(g[..1]) == [1] by {
      assert g[..1][..0] == [];
    }
    assert Flatten(g[..2]) == [1] + [4, 5] by {
      assert g[..2][..1] == g[..1];
    }
    assert Flatten(g) == [1, 4, 5, 7, 8, 9, 10] by {
      ThreeRunsJoined();
    }
    assert Consecutive(g[0]) && Consecutive(g[1]) && Consecutive(g[2]);
    assert Maximal(g);
    RunsAreUnique(g, [1, 4, 5, 7, 8, 9, 10]);
  }

  lemma {:induction false} ThreeRunsJoined()
    ensures [1] + [4, 5] + [7, 8, 9, 10] == [1, 4, 5, 7, 8, 9, 10]
  {
  }
}

=== FILE: images.dfy ===
/** `get_images`: the directory's file names, reduced to the `.jpg` files and
    put in shot order. The order is the integer after the last '-' of each
    stem ("roll3-12.jpg" is shot 12) when every stem has one, and otherwise
    the names compared as strings. Directory listing is not modelled: the
    names arrive as a sequence, in whatever order the listing gave. */
module Images {

  import opened Wrappers
  import opened Text
  import Sorting

  /** `PurePath.suffix`: from the last '.' on, unless that dot starts the
      name or ends it. */
  function Suffix(name: string): (r: string)
    ensures r == [] || (r[0] == '.' && 1 < |r| < |name| && EndsWith(name, r))
  {
    match RFind(name, '.')
    case Some(i) => if 0 < i < |name| - 1 then name[i..] else ""
    case None => ""
  }

  /** `PurePath.stem`: the name without its suffix. */
  function Stem(name: string): (r: string)
    ensures StartsWith(name, r)
  {
    match RFind(name, '.')
    case Some(i) => if 0 < i < |name| - 1 then name[..i] else name
    case None => name
  }

  /** Stem and suffix split the name. */
  lemma {:induction false} StemAndSuffix(name: string)
    ensures Stem(name) + Suffix(name) == name
  {
  }

  predicate IsJpg(name: string) {
    Suffix(name) == ".jpg"
  }

  /** A name is kept exactly when it ends in ".jpg" with something before the
      dot: ".jpg" alone is a hidden file with no suffix, and ".JPG" differs. */
  lemma {:induction false} IsJpgCharacterized(name: string)
    ensures IsJpg(name) <==> |name| > 4 && EndsWith(name, ".jpg")
  {
    var n := |name|;
    if |name| > 4 && EndsWith(name, ".jpg") {
      assert name[n - 4..] == ".jpg";
      assert name[n - 4] == '.' && name[n - 3] != '.' && name[n - 2] != '.' && name[n - 1] != '.';
      assert RFind(name, '.') == Some(n - 4);
    }
  }

  /** The `.jpg` files, in listing order. */
  function SelectJpg(names: seq<string>): (r: seq<string>)
    ensures |r| <= |names|
    ensures forall i | 0 <= i < |r| :: IsJpg(r[i])
    ensures forall x | x in names && IsJpg(x) :: x in r
  {
    if names == [] then []
    else
      var init, last := names[..|names| - 1], names[|names| - 1];
      assert names == init + [last];
      SelectJpg(init) + (if IsJpg(last) then [last] else [])
  }

  /** Each `.jpg` name is kept as often as it is listed; no other name is kept. */
  lemma {:induction false} SelectJpgCounts(names: seq<string>, x: string)
    ensures multiset(SelectJpg(names))[x] == if IsJpg(x) then multiset(names)[x] else 0
  {
    if names != [] {
      var init, y := names[..|names| - 1], names[|names| - 1];
      assert names == init + [y];
      SelectJpgCounts(init, x);
    }
  }

  /** The filter keeps listing order: selecting from two parts and joining is
      selecting from the whole. */
  lemma {:induction false} SelectJpgAppend(a: seq<string>, b: seq<string>)
    ensures SelectJpg(a + b) == SelectJpg(a) + SelectJpg(b)
  {
    if b == [] {
      assert a + b == a;
    } else {
      var init, x := b[..|b| - 1], b[|b| - 1];
      assert (a + b)[..|a + b| - 1] == a + init;
      assert (a + b)[|a + b| - 1] == x;
      SelectJpgAppend(a, init);
      assert SelectJpg(b) == SelectJpg(init) + (if IsJpg(x) then [x] else []);
    }
  }

  /** `stem.split("-")[-1]`: the text after the last '-', or the whole stem. */
  function NumberText(stem: string): (r: string)
    ensures '-' !in r && EndsWith(stem, r)
    ensures |r| < |stem| ==> stem[|stem| - |r| - 1] == '-'
  {
    match RFind(stem, '-')
    case Some(i) => stem[i + 1..]
    case None => stem
  }

  lemma {:induction false} NumberTextAfterHyphen(prefix: string, t: string)
    requires '-' !in t
    ensures NumberText(prefix + "-" + t) == t
  {
    var s := prefix + "-" + t;
    assert s[|prefix|] == '-';
    assert forall j | |prefix| < j < |s| :: s[j] == t[j - |prefix| - 1];
    assert RFind(s, '-') == Some(|prefix|);
    assert s[|prefix| + 1..] == t;
  }

  /** `int()` restricted to plain ASCII digits. */
  function ParseInt(t: string): (r: Option<nat>)
    ensures r.Some? <==> t != [] && AllDigits(t)
  {
    if t != [] && AllDigits(t) then Some(Value(t)) else None
  }

  lemma {:induction false} ParseIntOfPad(n: nat, width: nat)
    requires 1 <= width && n < Pow10(width)
    ensures ParseInt(Pad(n, width)) == Some(n)
  {
    ValueOfPad(n, width);
  }

  /** The sort key of a file name, when it has one. */
  function Key(name: string): Option<nat> {
    ParseInt(NumberText(Stem(name)))
  }

  function KeyOf(name: string): nat {
    match Key(name)
    case Some(k) => k
    case None => 0
  }

  predicate AllNumbered(names: seq<string>) {
    forall i | 0 <= i < |names| :: Key(names[i]).Some?
  }

  /** Comparison of the integer keys. */
  function KeyLe(a: string, b: string): bool {
    KeyOf(a) <= KeyOf(b)
  }

  /** Comparison of two names as Python compares strings: code point by code
      point, a proper prefix first. */
  function LexLe(a: string, b: string): (r: bool)
    ensures StartsWith(b, a) ==> r
    ensures a != b && StartsWith(a, b) ==> !r
  {
    if a == [] then true
    else if b == [] then false
    else if a[0] != b[0] then a[0] < b[0]
    else LexLe(a[1..], b[1..])
  }

  /** The first differing character decides the order of two names. */
  lemma {:induction false} LexLeAtFirstDifference(a: string, b: string, k: nat)
    requires k < |a| && k < |b| && a[..k] == b[..k] && a[k] != b[k]
    ensures LexLe(a, b) <==> a[k] < b[k]
  {
    if k > 0 {
      assert a[0] == a[..k][0] == b[..k][0] == b[0];
      assert a[1..][..k - 1] == a[..k][1..] == b[..k][1..] == b[1..][..k - 1];
      LexLeAtFirstDifference(a[1..], b[1..], k - 1);
    }
  }

  lemma {:induction false} LexLeTotal(a: string, b: string)
    ensures LexLe(a, b) || LexLe(b, a)
  {
    if a != [] && b != [] && a[0] == b[0] {
      LexLeTotal(a[1..], b[1..]);
    }
  }

  lemma {:induction false} LexLeTransitive(a: string, b: string, c: string)
    requires LexLe(a, b) && LexLe(b, c)
    ensures LexLe(a, c)
  {
    if a != [] && b != [] && c != [] && a[0] == b[0] && b[0] == c[0] {
      LexLeTransitive(a[1..], b[1..], c[1..]);
    }
  }

  /** Names that compare equal are equal, so the name order leaves no ties. */
  lemma {:induction false} LexLeAntisymmetric(a: string, b: string)
    requires LexLe(a, b) && LexLe(b, a)
    ensures a == b
  {
    if a != [] && b != [] {
      LexLeAntisymmetric(a[1..], b[1..]);
      assert a == [a[0]] + a[1..] && b == [b[0]] + b[1..];
    }
  }

  lemma {:induction false} LexLeIsTotalPreorder()
    ensures Sorting.TotalPreorder(LexLe)
  {
    forall a: string, b: string
      ensures LexLe(a, b) || LexLe(b, a)
    {
      LexLeTotal(a, b);
    }
    forall a: string, b: string, c: string | LexLe(a, b) && LexLe(b, c)
      ensures LexLe(a, c)
    {
      LexLeTransitive(a, b, c);
    }
  }

  lemma {:induction false} KeyLeIsTotalPreorder()
    ensures Sorting.TotalPreorder(KeyLe)
  {
  }

  /** The source's ordering: a stable sort by key, which raises `ValueError`
      before moving anything when some stem has no integer; the fallback then
      sorts by name. */
  function OrderImages(names: seq<string>): (r: seq<string>)
    ensures multiset(r) == multiset(SelectJpg(names))
    ensures AllNumbered(SelectJpg(names)) ==> Sorting.SortedBy(r, KeyLe)
    ensures !AllNumbered(SelectJpg(names)) ==> Sorting.SortedBy(r, LexLe)
  {
    var jpgs := SelectJpg(names);
    if AllNumbered(jpgs) then
      KeyLeIsTotalPreorder();
      Sorting.SortIsSorted(jpgs, KeyLe);
      Sorting.Sort(jpgs, KeyLe)
    else
      LexLeIsTotalPreorder();
      Sorting.SortIsSorted(jpgs, LexLe);
      Sorting.Sort(jpgs, LexLe)
  }

  /** Files with the same shot number stay in listing order. */
  lemma {:induction false} OrderImagesStable(names: seq<string>, p: string)
    requires AllNumbered(SelectJpg(names))
    ensures Sorting.TiesWith(OrderImages(names), p, KeyLe) == Sorting.TiesWith(SelectJpg(names), p, KeyLe)
  {
    KeyLeIsTotalPreorder();
    Sorting.SortIsStable(SelectJpg(names), p, KeyLe);
  }

  /** Every file ends up in the output exactly when it is a `.jpg` file. */
  lemma {:induction false} OrderImagesKeepsJpgs(names: seq<string>, x: string)
    ensures x in OrderImages(names) <==> x in names && IsJpg(x)
  {
    SelectJpgCounts(names, x);
    assert x in OrderImages(names) <==> multiset(OrderImages(names))[x] > 0;
  }

  // ----- examples -----

  /** The stem of "<stem>.jpg" when the stem holds no dot. */
  lemma {:induction false} StemOfJpg(stem: string)
    requires stem != [] && '.' !in stem
    ensures Stem(stem + ".jpg") == stem
  {
    var name := stem + ".jpg";
    assert name[|stem|] == '.';
    assert forall j | |stem| < j < |name| :: name[j] != '.';
    assert RFind(name, '.') == Some(|stem|);
    assert name[..|stem|] == stem;
  }

  /** The key of "<prefix>-<t>.jpg" is the integer `t` spells, if any. */
  lemma {:induction false} KeyOfNumbered(prefix: string, t: string)
    requires '.' !in prefix && '.' !in t && '-' !in t
    ensures Key(prefix + "-" + t + ".jpg") == ParseInt(t)
  {
    var stem := prefix + "-" + t;
    assert '.' !in stem by {
      assert forall j | 0 <= j < |stem| :: stem[j] == (if j < |prefix| then prefix[j] else if j == |prefix| then '-' else t[j - |prefix| - 1]);
    }
    StemOfJpg(stem);
    NumberTextAfterHyphen(prefix, t);
  }

  lemma {:induction false} NumberedExample()
    ensures Key("roll3-12.jpg") == Some(12)
  {
    NumberedName();
    KeyOfNumbered("roll3", "12");
    ParseTwelve();
  }

  lemma {:induction false} ParseTwelve()
    ensures ParseInt("12") == Some(12)
  {
    assert Value("12") == 12 by { assert "12"[..1] == "1"; }
  }

  lemma {:induction false} NumberedName()
    ensures "roll3-12.jpg" == "roll3" + "-" + "12" + ".jpg"
  {
  }

  lemma {:induction false} LastHyphenExample()
    ensures Key("a-b-7.jpg") == Some(7)
  {
    assert "a-b-7.jpg" == "a-b" + "-" + "7" + ".jpg";
    KeyOfNumbered("a-b", "7");
    assert Value("7") == 7 by { assert "7"[..0] == ""; }
  }

  lemma {:induction false} UnnumberedExample()
    ensures Key("scan.jpg") == None
  {
    StemOfJpg("scan");
    assert "scan.jpg" == "scan" + ".jpg";
    assert NumberText("scan") == "scan" by {
      assert RFind("scan", '-') == None;
    }
    assert !IsDigit("scan"[0]);
  }
}

=== FILE: row_shift.dfy ===
/** `shift_rows_down`: the table's rows, seen as a sequence of value rows
    (the Treeview widget and its item identifiers are not modelled). From the
    selected position on, every row moves down one slot, the last row falls
    off, and the selected slot gets a placeholder row. */
module RowShift {

  type Row = seq<string>

  /** `["-"] * 3`. */
  const Placeholder: Row := ["-", "-", "-"]

  predicate ValidIndex(rows: seq<Row>, selected: int) {
    0 <= selected < |rows|
  }

  /** The shift as a sequence expression: the rows before the selection, the
      placeholder, then the rest without the old last row. */
  function ShiftedDown(rows: seq<Row>, selected: int): seq<Row> {
    if ValidIndex(rows, selected) then rows[..selected] + [Placeholder] + rows[selected..|rows| - 1]
    else rows
  }

  /** The shift loses exactly the old last row and gains one placeholder. */
  lemma {:induction false} ShiftDiscardsLastRow(rows: seq<Row>, selected: int)
    requires ValidIndex(rows, selected)
    ensures multiset(ShiftedDown(rows, selected))
         == multiset(rows) - multiset{rows[|rows| - 1]} + multiset{Placeholder}
  {
    var n := |rows|;
    assert rows == rows[..selected] + rows[selected..n - 1] + [rows[n - 1]];
  }

  /** The source loop, run over an array copy of the rows: positions are
      visited from the bottom up to just below the selection, each taking the
      value of the row above it before that row is overwritten. */
  method ShiftRowsDown(rows: seq<Row>, selected: int) returns (shifted: seq<Row>)
    ensures |shifted| == |rows|
    ensures !ValidIndex(rows, selected) ==> shifted == rows
    ensures ValidIndex(rows, selected) ==>
      && (forall i | 0 <= i < selected :: shifted[i] == rows[i])
      && shifted[selected] == Placeholder
      && (forall i | selected < i < |rows| :: shifted[i] == rows[i - 1])
    ensures shifted == ShiftedDown(rows, selected)
  {
    if selected < 0 || selected >= |rows| {
      return rows;
    }
    var table := new Row[|rows|](i requires 0 <= i < |rows| => rows[i]);
    var i := |rows| - 1;
    while i > selected
      invariant selected <= i <= |rows| - 1
      invariant forall j | 0 <= j <= i :: table[j] == rows[j]
      invariant forall j | i < j < |rows| :: table[j] == rows[j - 1]
    {
      table[i] := table[i - 1];
      i := i - 1;
    }
    table[selected] := Placeholder;
    shifted := table[..];
    ShiftedDownPointwise(rows, selected, shifted);
  }

  /** A sequence that agrees with the shift at every position is the shift. */
  lemma {:induction false} ShiftedDownPointwise(rows: seq<Row>, selected: int, shifted: seq<Row>)
    requires ValidIndex(rows, selected) && |shifted| == |rows|
    requires forall i | 0 <= i < selected :: shifted[i] == rows[i]
    requires shifted[selected] == Placeholder
    requires forall i | selected < i < |rows| :: shifted[i] == rows[i - 1]
    ensures shifted == ShiftedDown(rows, selected)
  {
    var expected := ShiftedDown(rows, selected);
    assert |expected| == |rows|;
    forall i | 0 <= i < |rows|
      ensures shifted[i] == expected[i]
    {
      if i < selected {
        assert expected[i] == rows[..selected][i];
      } else if i > selected {
        assert expected[i] == rows[selected..|rows| - 1][i - selected - 1];
      }
    }
  }

  /** The window's button: four rows, shifted from position 1. */
  lemma {:induction false} FourRowsExample(a: Row, b: Row, c: Row, d: Row)
    ensures ShiftedDown([a, b, c, d], 1) == [a, Placeholder, b, c]
  {
    var rows := [a, b, c, d];
    assert rows[..1] == [a] && rows[1..3] == [b, c];
  }
}

=== FILE: sorting.dfy ===
/** Python's `list.sort`: a stable sort under a total preorder, written as an
    insertion sort over sequences. Stability means elements that compare
    equal keep their input order. */
module Sorting {

  ghost predicate TotalPreorder<T(!new)>(le: (T, T) -> bool) {
    && (forall a, b :: le(a, b) || le(b, a))
    && (forall a, b, c :: le(a, b) && le(b, c) ==> le(a, c))
  }

  predicate SortedBy<T>(s: seq<T>, le: (T, T) -> bool) {
    forall i, j | 0 <= i < j < |s| :: le(s[i], s[j])
  }

  /** `a` and `b` compare equal under `le`. */
  predicate Tied<T>(a: T, b: T, le: (T, T) -> bool) {
    le(a, b) && le(b, a)
  }

  /** The elements of `s` that compare equal to `p`, in their order in `s`. */
  function TiesWith<T>(s: seq<T>, p: T, le: (T, T) -> bool): seq<T> {
    if s == [] then []
    else (if Tied(s[0], p, le) then [s[0]] else []) + TiesWith(s[1..], p, le)
  }

  lemma {:induction false} TiesWithAppend<T>(a: seq<T>, b: seq<T>, p: T, le: (T, T) -> bool)
    ensures TiesWith(a + b, p, le) == TiesWith(a, p, le) + TiesWith(b, p, le)
  {
    if a != [] {
      assert (a + b)[1..] == a[1..] + b;
      TiesWithAppend(a[1..], b, p, le);
    } else {
      assert a + b == b;
    }
  }

  /** Puts `x` after every element of `s` that is not strictly greater. */
  function Insert<T>(x: T, s: seq<T>, le: (T, T) -> bool): (r: seq<T>)
    ensures multiset(r) == multiset(s) + multiset{x}
  {
    if s == [] then [x]
    else if !le(s[0], x) then [x] + s
    else
      assert s == [s[0]] + s[1..];
      [s[0]] + Insert(x, s[1..], le)
  }

  lemma {:induction false} InsertSorted<T(!new)>(x: T, s: seq<T>, le: (T, T) -> bool)
    requires TotalPreorder(le)
    requires SortedBy(s, le)
    ensures SortedBy(Insert(x, s, le), le)
  {
    if s != [] && le(s[0], x) {
      InsertSorted(x, s[1..], le);
      var r := Insert(x, s, le);
      forall j | 0 < j < |r|
        ensures le(s[0], r[j])
      {
        assert r[j] in multiset(Insert(x, s[1..], le));
        assert r[j] in multiset(s[1..]) + multiset{x};
        if r[j] != x {
          assert r[j] in s[1..];
        }
      }
    }
  }

  /** Inserting `x` into a sorted sequence appends it after the elements it
      ties with, and leaves every other tie class as it was. */
  lemma {:induction false} InsertTies<T(!new)>(x: T, s: seq<T>, p: T, le: (T, T) -> bool)
    requires TotalPreorder(le)
    requires SortedBy(s, le)
    ensures TiesWith(Insert(x, s, le), p, le)
         == TiesWith(s, p, le) + (if Tied(x, p, le) then [x] else [])
  {
    var tx: seq<T> := if Tied(x, p, le) then [x] else [];
    if s == [] {
    } else if !le(s[0], x) {
      FrontTies(x, s, p, le);
    } else {
      SortedTail(s, le);
      InsertTies(x, s[1..], p, le);
      InsertPast(x, s, le);
      ConsTies(Insert(x, s[1..], le), s, tx, p, le);
    }
  }

  lemma {:induction false} SortedTail<T>(s: seq<T>, le: (T, T) -> bool)
    requires s != [] && SortedBy(s, le)
    ensures SortedBy(s[1..], le)
  {
    forall i, j | 0 <= i < j < |s| - 1
      ensures le(s[1..][i], s[1..][j])
    {
      assert s[1..][i] == s[i + 1] && s[1..][j] == s[j + 1];
    }
  }

  lemma {:induction false} InsertPast<T>(x: T, s: seq<T>, le: (T, T) -> bool)
    requires s != [] && le(s[0], x)
    ensures Insert(x, s, le) == [s[0]] + Insert(x, s[1..], le)
  {
  }

  lemma {:induction false} ConsTies<T>(r: seq<T>, s: seq<T>, tail: seq<T>, p: T, le: (T, T) -> bool)
    requires s != []
    requires TiesWith(r, p, le) == TiesWith(s[1..], p, le) + tail
    ensures TiesWith([s[0]] + r, p, le) == TiesWith(s, p, le) + tail
  {
    assert ([s[0]] + r)[1..] == r;
  }

  lemma {:induction false} FrontTies<T(!new)>(x: T, s: seq<T>, p: T, le: (T, T) -> bool)
    requires TotalPreorder(le)
    requires SortedBy(s, le)
    requires s != [] && !le(s[0], x)
    ensures TiesWith([x] + s, p, le) == TiesWith(s, p, le) + (if Tied(x, p, le) then [x] else [])
  {
    assert ([x] + s)[1..] == s;
    if Tied(x, p, le) {
      assert !le(s[0], p);
      NoneTied(s, p, le);
    }
  }

  /** In a sorted sequence whose head is strictly greater than `p`, nothing
      ties with `p`. */
  lemma {:induction false} NoneTied<T(!new)>(s: seq<T>, p: T, le: (T, T) -> bool)
    requires TotalPreorder(le)
    requires SortedBy(s, le)
    requires s != [] && !le(s[0], p)
    ensures TiesWith(s, p, le) == []
  {
    if |s| > 1 {
      assert SortedBy(s[1..], le);
      assert !le(s[1], p);
      NoneTied(s[1..], p, le);
    }
  }

  /** Python's `sorted(s, key=...)` under the preorder `le`. */
  function Sort<T(!new)>(s: seq<T>, le: (T, T) -> bool): (r: seq<T>)
    ensures multiset(r) == multiset(s)
  {
    if s == [] then []
    else
      assert s == s[..|s| - 1] + [s[|s| - 1]];
      Insert(s[|s| - 1], Sort(s[..|s| - 1], le), le)
  }

  lemma {:induction false} SortIsSorted<T(!new)>(s: seq<T>, le: (T, T) -> bool)
    requires TotalPreorder(le)
    ensures SortedBy(Sort(s, le), le)
  {
    if s != [] {
      SortIsSorted(s[..|s| - 1], le);
      InsertSorted(s[|s| - 1], Sort(s[..|s| - 1], le), le);
    }
  }

  /** Stability: every class of tied elements appears in the result in the
      same order as in the input. */
  lemma {:induction false} SortIsStable<T(!new)>(s: seq<T>, p: T, le: (T, T) -> bool)
    requires TotalPreorder(le)
    ensures TiesWith(Sort(s, le), p, le) == TiesWith(s, p, le)
  {
    if s != [] {
      var init, x := s[..|s| - 1], s[|s| - 1];
      SortIsStable(init, p, le);
      SortIsSorted(init, le);
      InsertTies(x, Sort(init, le), p, le);
      StableStep(s, p, le);
    }
  }

  /** The sequence bookkeeping of one step of `SortIsStable`. */
  lemma {:induction false} StableStep<T(!new)>(s: seq<T>, p: T, le: (T, T) -> bool)
    requires s != []
    requires TiesWith(Sort(s[..|s| - 1], le), p, le) == TiesWith(s[..|s| - 1], p, le)
    requires TiesWith(Insert(s[|s| - 1], Sort(s[..|s| - 1], le), le), p, le)
          == TiesWith(Sort(s[..|s| - 1], le), p, le) + (if Tied(s[|s| - 1], p, le) then [s[|s| - 1]] else [])
    ensures TiesWith(Sort(s, le), p, le) == TiesWith(s, p, le)
  {
    assert Sort(s, le) == Insert(s[|s| - 1], Sort(s[..|s| - 1], le), le);
    TiesWithSnoc(s, p, le);
  }

  /** `TiesWith` seen from the back. */
  lemma {:induction false} TiesWithSnoc<T>(s: seq<T>, p: T, le: (T, T) -> bool)
    requires s != []
    ensures TiesWith(s, p, le)
         == TiesWith(s[..|s| - 1], p, le) + (if Tied(s[|s| - 1], p, le) then [s[|s| - 1]] else [])
  {
    var init, x := s[..|s| - 1], s[|s| - 1];
    assert s == init + [x];
    TiesWithAppend(init, [x], p, le);
    assert [x][1..] == [];
  }
}

=== FILE: text.dfy ===
/** Character and string helpers shared by the parsers: ASCII digits and
    decimal values, zero-padded rendering, ASCII whitespace and case folding, and Python's
    slice and `rfind` conventions. */
module Text {

  import Wrappers

  predicate IsDigit(c: char) {
    '0' <= c <= '9'
  }

  predicate AllDigits(s: string) {
    forall i | 0 <= i < |s| :: IsDigit(s[i])
  }

  /** Whitespace matched by `\s` in the ASCII range: the six C-locale
      spaces and the separators U+001C..U+001F, which Python's
      `str.isspace()` also counts. */
  predicate IsSpace(c: char) {
    || c == ' ' || c == '\t' || c == '\n' || c == '\r' || c == '\U{B}' || c == '\U{C}'
    || ('\U{1C}' <= c <= '\U{1F}')
  }

  function DigitValue(c: char): nat
    requires IsDigit(c)
  {
    c as int - '0' as int
  }

  function DigitChar(d: nat): (c: char)
    requires d < 10
    ensures IsDigit(c) && DigitValue(c) == d
  {
    ('0' as int + d) as char
  }

  function Pow10(k: nat): (p: nat)
    ensures p >= 1
  {
    if k == 0 then 1 else 10 * Pow10(k - 1)
  }

  /** The decimal value of a string of digits, most significant first. */
  function Value(ds: string): nat
    requires AllDigits(ds)
  {
    if ds == [] then 0 else Value(ds[..|ds| - 1]) * 10 + DigitValue(ds[|ds| - 1])
  }

  /** `n` written with exactly `width` digits, zero-padded on the left (the
      `%02d`-style rendering of `strftime`). */
  function Pad(n: nat, width: nat): (r: string)
    ensures |r| == width
    ensures AllDigits(r)
  {
    if width == 0 then "" else Pad(n / 10, width - 1) + [DigitChar(n % 10)]
  }

  lemma {:induction false} ValueOfPad(n: nat, width: nat)
    requires n < Pow10(width)
    ensures Value(Pad(n, width)) == n
  {
    if width > 0 {
      assert n / 10 < Pow10(width - 1);
      ValueOfPad(n / 10, width - 1);
      var p := Pad(n, width);
      assert p[..|p| - 1] == Pad(n / 10, width - 1);
      assert p[|p| - 1] == DigitChar(n % 10);
    }
  }

  lemma {:induction false} ValueBelowPow10(ds: string)
    requires AllDigits(ds)
    ensures Value(ds) < Pow10(|ds|)
  {
    if ds != [] {
      ValueBelowPow10(ds[..|ds| - 1]);
    }
  }

  lemma {:induction false} Pow10Monotone(a: nat, b: nat)
    requires a <= b
    ensures Pow10(a) <= Pow10(b)
  {
    if a < b {
      Pow10Monotone(a, b - 1);
    }
  }

  /** The length of the run of digits at the start of `s`. */
  function SpanDigits(s: string): (n: nat)
    ensures n <= |s|
    ensures AllDigits(s[..n])
    ensures n < |s| ==> !IsDigit(s[n])
  {
    if s == [] || !IsDigit(s[0]) then 0 else 1 + SpanDigits(s[1..])
  }

  /** The digit run of `ds + rest` is exactly `ds` when `rest` does not go on
      with a digit. */
  lemma {:induction false} SpanDigitsOfDigits(ds: string, rest: string)
    requires AllDigits(ds)
    requires rest == [] || !IsDigit(rest[0])
    ensures SpanDigits(ds + rest) == |ds|
  {
    if ds == [] {
      assert ds + rest == rest;
    } else {
      assert (ds + rest)[1..] == ds[1..] + rest;
      SpanDigitsOfDigits(ds[1..], rest);
    }
  }

  /** The length of the run of whitespace at the start of `s`. */
  function SpanSpaces(s: string): (n: nat)
    ensures n <= |s|
    ensures forall i | 0 <= i < n :: IsSpace(s[i])
    ensures n < |s| ==> !IsSpace(s[n])
  {
    if s == [] || !IsSpace(s[0]) then 0 else 1 + SpanSpaces(s[1..])
  }

  /** A non-empty run of whitespace: what `\s+` matches. */
  predicate IsBlank(w: string) {
    w != [] && forall i | 0 <= i < |w| :: IsSpace(w[i])
  }

  /** The whitespace run of `w + rest` is exactly `w` when `rest` does not
      go on with whitespace. */
  lemma {:induction false} SpanSpacesOfBlank(w: string, rest: string)
    requires forall i | 0 <= i < |w| :: IsSpace(w[i])
    requires rest == [] || !IsSpace(rest[0])
    ensures SpanSpaces(w + rest) == |w|
  {
    if w == [] {
      assert w + rest == rest;
    } else {
      assert (w + rest)[1..] == w[1..] + rest;
      assert forall i | 0 <= i < |w[1..]| :: w[1..][i] == w[i + 1];
      SpanSpacesOfBlank(w[1..], rest);
    }
  }

  function Lower(c: char): char {
    if 'A' <= c <= 'Z' then (c as int + 32) as char else c
  }

  /** Equality of two strings up to ASCII letter case. */
  predicate SameIgnoringCase(a: string, b: string) {
    |a| == |b| && forall i | 0 <= i < |a| :: Lower(a[i]) == Lower(b[i])
  }

  predicate StartsWith(s: string, prefix: string) {
    |prefix| <= |s| && s[..|prefix|] == prefix
  }

  predicate EndsWith(s: string, suffix: string) {
    |suffix| <= |s| && s[|s| - |suffix|..] == suffix
  }

  /** Python's normalisation of a slice bound: a negative bound counts from
      the end, and the result is clamped to `0..n`. */
  function SliceBound(i: int, n: nat): (b: nat)
    ensures b <= n
    ensures 0 <= i <= n ==> b == i
    ensures i < 0 <= i + n ==> b == n + i
    ensures i + n < 0 ==> b == 0
    ensures i > n ==> b == n
  {
    if i < 0 then (if i + n < 0 then 0 else i + n) else if i > n then n else i
  }

  /** Python's `s[lo:hi]`: never fails, empty when the bounds cross. */
  function Slice(s: string, lo: int, hi: int): (r: string)
    ensures SliceBound(lo, |s|) <= SliceBound(hi, |s|) ==> |r| == SliceBound(hi, |s|) - SliceBound(lo, |s|)
    ensures SliceBound(hi, |s|) <= SliceBound(lo, |s|) ==> r == []
    ensures forall i | 0 <= i < |r| :: r[i] == s[SliceBound(lo, |s|) + i]
  {
    var a := SliceBound(lo, |s|);
    var b := SliceBound(hi, |s|);
    if a < b then s[a..b] else []
  }

  /** Python's `s.rfind(c)`: the last index holding `c`, or None. */
  function RFind(s: string, c: char): (r: Wrappers.Option<nat>)
    ensures r.Some? ==> r.value < |s| && s[r.value] == c
    ensures r.Some? ==> forall j | r.value < j < |s| :: s[j] != c
    ensures r.None? ==> forall j | 0 <= j < |s| :: s[j] != c
  {
    if s == [] then Wrappers.None
    else if s[|s| - 1] == c then Wrappers.Some(|s| - 1)
    else RFind(s[..|s| - 1], c)
  }
}

=== FILE: wrappers.dfy ===
/** Optional and fallible values.  `None` stands for the script's empty-string
    and `None` fallbacks and for a scan that found nothing; `Failure` stands
    for an exception the script raises. */
module Wrappers {

  /** An `Option` is what the `:-` operator unwraps: a scan that found
      nothing (`None`) ends the enclosing scan with `None`. */
  datatype Option<T> = None | Some(value: T) {

    predicate IsFailure() {
      !Some?
    }

    function PropagateFailure<U>(): (r: Option<U>)
      requires !Some?
    {
      None
    }

    function Extract(): (v: T)
      requires Some?
    {
      this.value
    }
  }

  /** The outcome of a step that may raise: its value, or the reason it raised. */
  datatype Result<T, E> = Success(value: T) | Failure(error: E)
}
